=== FILE: README.md ===
# vea front end and scope resolver, modelled in Dafny

`vea` is a small scripting language written in Rust. It has three stages:

- **Lexer** (`vea/src/lexer.rs`): turns source text into tokens. Each token is tagged with its start and end character offsets. It is built from parser combinators.
- **Parser** (`vea/src/parser.rs`): turns the token kinds into statement nodes. Each node is tagged with the token-index range it covers.
- **Driver** (`vea/src/lib.rs`): runs lexer, parser and interpreter in turn. Each stage runs only when the one before produced output. It turns the token-index spans in diagnostics back into source offsets.

The repository also has a TypeScript port. This project models its scope resolver (`js/src/resolver.ts`). It walks the statements with a stack of scopes and tells the interpreter, for every variable it resolves, how many scopes out the variable lives. Errors such as a redeclared variable or a class inheriting from itself go to the error reporter.

Layout:

| file | models |
|---|---|
| `wrappers.dfy`, `spans.dfy`, `tokens.dfy` | `Option`; `Span` with ordering and containment predicates; the token set with Rust's `i64` |
| `escapes.dfy` | the escape decoder inside the string recogniser: as written and corrected |
| `lexer.dfy` | the six token recognisers in priority order, padding, skip-and-retry recovery, and the whole tokenizer |
| `lexer_facts.dfy` | round trips, keyword/identifier and operator-order properties, recovery behaviour, concrete inputs |
| `ast.dfy`, `parser.dfy` | the syntax tree and the grammar as ordered-choice rules |
| `parser_facts.dfy` | which alternative wins, rejected and accepted programs |
| `pipeline.dfy` | span stripping, span translation, stage gating and the transcript |
| `resolution.dfy` | the resolver as functions on its state, and the properties of those functions |
| `resolver.dfy` | the `Resolver` class, with fields updated in place and each method proved equal to its function |

How each piece is modelled:

- **Combinators.** A combinator that is an ordered choice becomes a function. It takes the input and a position, and returns `None` or a result with the position after it.
- **Failure.** Failure carries no error value. Only the offsets the lexer reports are kept.
- **The resolver class.** Its mutable fields are `scopes`, `current_fn`, `current_class`, and a `log`. The log stands in for the two outside services the resolver calls: `interpreter.resolve` and `Everest.error_with`.

## Model

| member | source | states |
|---|---|---|
| Escapes.EscapeChar | vea/src/lexer.rs:109-120 | a backslash escape is valid exactly for `n t r 0 \ '` |
| Escapes.Unescape | vea/src/lexer.rs:106-127 | a body can fail to decode only if it holds a backslash |
| Escapes.UnescapeLength | vea/src/lexer.rs:106-125 | each decoded character comes from one or two body characters, so the decoded text is between half the body's length and its full length |
| Escapes.DecodeString | vea/src/lexer.rs:101-128 | a literal body yields a `String` no longer than the body or the `InvalidStringEscape` error, and the error only for a body with a backslash |
| Escapes.DecodeEscapes | vea/src/lexer.rs:101-128 | the decoding loop, with the index advanced past each character it consumes, returns the decoding of the body: the string for a valid body, `Error(InvalidStringEscape)` otherwise |
| Escapes.UnescapeEscape | vea/src/lexer.rs:106-127 | decoding the escaped spelling of any string gives that string back |
| Escapes.EscapeNoQuote | vea/src/lexer.rs:98-100 | escaping a string without quotes yields a body without quotes, which the literal recogniser can read |
| Escapes.UnescapePlain | vea/src/lexer.rs:123 | a body without backslashes decodes to itself |
| Escapes.UnescapeAppend | vea/src/lexer.rs:106-125 | when the first part decodes, decoding a concatenation is the first part's decoding followed by the second part's decoding |
| Escapes.InvalidEscapeRejected | vea/src/lexer.rs:120 | a backslash followed by a non-escape letter makes the literal an `InvalidStringEscape` error, whatever surrounds it |
| Escapes.TrailingBackslashRejected | vea/src/lexer.rs:109-120 | a backslash at the end of the body makes the literal an error |
| Escapes.DecodeExamples | vea/src/lexer.rs:113-120 | the body `a\nb` decodes to `a`, a newline, `b`; the body `a\qb` is rejected |
| Escapes.StepAsWritten | vea/src/lexer.rs:106-124 | one pass as written: a returned loop stays returned; past the end it returns the buffer as a `String`; a pass that keeps looping appends exactly one character to the buffer and moves the index by one after a backslash and not at all otherwise |
| Escapes.RunAsWritten | vea/src/lexer.rs:106-125 | after `n` passes a loop still running has `n` characters in its buffer and an index of at most `n` |
| Escapes.AsWrittenLoopNeverExits | vea/src/lexer.rs:106-125 | as written, the loop over a slice not starting with a backslash stays at index 0 forever, copying its first character once per pass |
| Lexer.RunEnd | vea/src/lexer.rs:91-93 | a greedy run of a character class ends at the first character outside the class |
| Lexer.NumAt | vea/src/lexer.rs:86-88 | an integer starts at a digit; a leading `0` is the number 0 by itself; otherwise the longest digit run is read; the value is `Number` when it fits in `i64` and `Error(IntegerOverflow)` otherwise |
| Lexer.IdentAt | vea/src/lexer.rs:91-96 | an identifier is the longest non-empty run of `a`-`z` and `_`, and its token carries exactly that text |
| Lexer.TableAt | vea/src/lexer.rs:132-190 | a choice of literal spellings fails exactly when no entry's spelling starts at the position; on success it consumes a spelling of the table and yields that entry's token |
| Lexer.OpAt | vea/src/lexer.rs:132-166 | the operator recogniser fails exactly when no operator is spelled at the position; on success the consumed text and the token are an entry of the operator table |
| Lexer.KwAt | vea/src/lexer.rs:181-190 | the keyword recogniser yields only keyword tokens and consumes at least one character |
| Lexer.CtrlAt | vea/src/lexer.rs:168-179 | a control token is exactly one character |
| Lexer.FirstMatchFrom | vea/src/lexer.rs:132-164 | ordered choice over literal spellings: the result is the first entry whose spelling starts at the position; no earlier entry matches |
| Lexer.StringAt | vea/src/lexer.rs:98-128 | a literal runs from a quote to the next quote, and its token is the decoding of the characters strictly between them |
| Lexer.StringAtAsWritten | vea/src/lexer.rs:98-128 | with the slice as written (quotes included), decoded by the corrected loop, the recogniser accepts exactly the inputs `StringAt` accepts and ends at the same place; only the decoded slice differs |
| Lexer.TokenAt | vea/src/lexer.rs:200-207 | a token consumes at least one character, and `Underscore` is never produced: the identifier alternative comes first and claims `_` |
| Lexer.OpNotUnderscore | vea/src/lexer.rs:155 | the operator table yields `Underscore` only for the spelling `_` |
| Lexer.SkipPadding | vea/src/lexer.rs:194-198 | padding stops at the end of the input or at a character that is neither whitespace nor the start of `//` |
| Lexer.LexFrom | vea/src/lexer.rs:209-215 | the tokens lexed from a position are in order, inside the input, never `Underscore`, and none starts on whitespace or on `//` |
| Lexer.RecoverFrom | vea/src/lexer.rs:213 | skip-then-retry recovery keeps the same guarantees on what it produces; `LexerFacts.RecoveryResumes` states where it resumes |
| Lexer.Lex | vea/src/lexer.rs:209-215 | the tokenizer's output is ordered and inside the source, and no token starts on whitespace or on `//`; `LexerFacts.LexIsTiling` states what the tokens are |
| LexerFacts.NumberRoundTrip | vea/src/lexer.rs:86-88 | the decimal spelling of any natural `n` lexes to `Number(n)` when it fits in `i64`, and to an overflow error otherwise, consuming all of it |
| LexerFacts.KeywordsPrefixFree | vea/src/lexer.rs:181-190 | no keyword is a prefix of another, so the keyword choice's order does not matter |
| LexerFacts.KeywordBeatsIdent | vea/src/lexer.rs:200-202 | wherever a keyword's spelling starts, the token is that keyword with exactly its length, even inside a longer word |
| LexerFacts.KeywordPrefixSplits | vea/src/lexer.rs:181-202 | `letter` lexes as `Let` followed by `Ident("ter")` |
| LexerFacts.OperatorsOrdered | vea/src/lexer.rs:132-164 | no operator spelling is a proper prefix of a later one, so a shorter operator never shadows a longer one |
| LexerFacts.MultiCharOperatorsFirst | vea/src/lexer.rs:132-164 | the sixteen multi-character operators come before all one-character ones |
| LexerFacts.OperatorLongestMatch | vea/src/lexer.rs:132-164 | the operator recognised is at least as long as any operator spelled at that position |
| LexerFacts.TableAtIsFirstMatch | vea/src/lexer.rs:132-164 | the entry chosen is the first whose spelling starts at the position, whatever entries follow it |
| LexerFacts.TokenAtOperator | vea/src/lexer.rs:200-204 | at a character that starts no number or word, the token is the first matching operator table entry |
| LexerFacts.TokenAtControl | vea/src/lexer.rs:168-204 | each control character lexes to its own control token |
| LexerFacts.TokenAtIdent | vea/src/lexer.rs:200-202 | at a letter where no keyword starts, the token is the identifier |
| LexerFacts.NoTokenAt | vea/src/lexer.rs:200-207 | at the end, or at a character that starts no token, no token is recognised |
| LexerFacts.ShiftAssignIsOneToken | vea/src/lexer.rs:142-153 | `<<=` lexes to the single token `ShlEq`, not `Shl` followed by `Eq` |
| LexerFacts.StringLiteralRoundTrip | vea/src/lexer.rs:98-128 | quoting the escaped spelling of a quote-free string lexes back to that string, consuming all of it |
| LexerFacts.StringSliceKeepsQuotes | vea/src/lexer.rs:98-101 | with the slice as written, even decoded by the corrected loop, the text of a plain literal includes its two quotes; the corrected recogniser drops them |
| LexerFacts.TokenAtDigit | vea/src/lexer.rs:200-201 | at a digit the token is what the integer recogniser reads |
| LexerFacts.TokenAtQuote | vea/src/lexer.rs:200-207 | at a quote every other recogniser declines, so the token is what the string recogniser reads |
| LexerFacts.PaddingIsBlank | vea/src/lexer.rs:194-198 | every character padding skips is whitespace or lies in a `//` comment that no newline has closed yet, and the character where it stops is neither |
| LexerFacts.CleanLexTiles | vea/src/lexer.rs:209-215 | a lex without diagnostics tiles the input: each token is what `TokenAt` reads where the padding before it ends, and only padding follows the last |
| LexerFacts.TilingLexes | vea/src/lexer.rs:209-215 | conversely, a tiling of the input is exactly the lexer's output, with no diagnostics |
| LexerFacts.LexIsTiling | vea/src/lexer.rs:209-215 | the tokenizer returns a token list without diagnostics exactly when that list tiles the source |
| LexerFacts.NumberLexes | vea/src/lexer.rs:209-215 | the decimal spelling of `n`, as a whole source, lexes to the single token `Number(n)`, or the overflow error when `n` exceeds `i64` |
| LexerFacts.StringLexes | vea/src/lexer.rs:209-215 | the quoted, escaped spelling of a quote-free string, as a whole source, lexes to the single token carrying that string |
| LexerFacts.PaddingIsSkipped | vea/src/lexer.rs:194-212 | when a token follows, leading whitespace and comments do not change the output |
| LexerFacts.CommentOnlyRelexed | vea/src/lexer.rs:194-213 | a source holding only the comment `//x` has no token where padding ends, so recovery retries from offset 1 and lexes `/` and `x` as tokens, reporting one error at offset 3 |
| LexerFacts.UnlexableInput | vea/src/lexer.rs:213 | `@` yields no token list and one error at offset 0 |
| LexerFacts.RecoveryReports | vea/src/lexer.rs:213 | every recovery reports its error first |
| LexerFacts.RecoveryResumes | vea/src/lexer.rs:213 | when the padded token fails at every start from `p` up to `k`, recovery resumes at `k`: a token read there is followed by lexing after it, with the recovery's one error ahead of the rest's; with no token there at the end of the input, recovery gives up with no token list and that one error |
| LexerFacts.FailureReported | vea/src/lexer.rs:209-215 | whenever no token list results, at least one error is reported |
| Ast.OpToken | vea/src/parser.rs:171-195 | no binary form uses `==` as its operator token |
| Parser.Atom | vea/src/parser.rs:27-58 | an atom starts with a literal, identifier or `(`, is an atom node and spans exactly the tokens it consumed; `ParserFacts.AtomMaps` states the node each token becomes |
| Parser.BinaryForm | vea/src/parser.rs:69-195 | a binary form is atom, operator token, atom, with the operator in the one token between its operands; `ParserFacts.BinaryFormLeft` and `ParserFacts.BinaryFormRight` state its operands |
| Parser.FirstBinary | vea/src/parser.rs:198 | the binary alternatives tried in order yield a well-shaped binary node |
| Parser.UnaryForm | vea/src/parser.rs:60-67 | a unary form is `!` or `-` followed by an atom; `ParserFacts.UnaryFormParts` states its operand |
| Parser.Inline | vea/src/parser.rs:198 | an inline expression is a binary form, a unary form or an atom, each with atom operands |
| Parser.LetRule | vea/src/parser.rs:201-215 | `let` Ident `=` inline `;`: it binds the identifier token's name to the initializer between `=` and `;`; `ParserFacts.LetRuleParts` states the initializer |
| Parser.BlockRule | vea/src/parser.rs:217-227 | a block is statements between `{` and `}`, all inside the braces; `ParserFacts.BlockRuleParts` states its statements |
| Parser.IfRule | vea/src/parser.rs:229-255 | `if` then a block; an `else` token is recorded when present; the else branch, when present, is a block or another `if`; `ParserFacts.IfRuleParts` states its branches |
| Parser.IfTail | vea/src/parser.rs:232-254 | without `else` the node ends at the block; with `else` the token after the block is `else` |
| Parser.ElseBranch | vea/src/parser.rs:233-235 | what follows `else` is a block or an `if` |
| Parser.Stmt | vea/src/parser.rs:257 | a statement is a block, a `let` or an `if`, and starts with `{`, `let` or `if` |
| Parser.Stmts | vea/src/parser.rs:257 | repeated statements are ordered, well formed and inside the range consumed |
| Parser.Program | vea/src/parser.rs:257 | a parsed program is a sequence of ordered, well-formed statements inside the token list |
| ParserFacts.BinaryOpsDistinct | vea/src/parser.rs:69-195 | the ten binary forms use ten distinct operator tokens |
| ParserFacts.FirstBinaryFinds | vea/src/parser.rs:198 | the first binary form that succeeds is the one chosen |
| ParserFacts.FirstBinaryNone | vea/src/parser.rs:198 | when no binary form succeeds, none is chosen |
| ParserFacts.InlinePrefersBinary | vea/src/parser.rs:198 | atom, operator, atom is parsed as that binary form, never as the bare atom |
| ParserFacts.InlineFallsBackToAtom | vea/src/parser.rs:198 | an atom not followed by an operator and a second atom is parsed as the atom alone |
| ParserFacts.BinaryFormNeedsSecondAtom | vea/src/parser.rs:69-195 | a binary form fails without an atom after its operator |
| ParserFacts.InlineUnary | vea/src/parser.rs:198 | an inline expression starting with `!` or `-` is the unary form |
| ParserFacts.InlineSucceeds | vea/src/parser.rs:198 | an inline expression exists exactly when an atom or a unary form does |
| ParserFacts.EqualityIsSingleEquals | vea/src/parser.rs:171-182 | an equality node's operator token is `=`, directly after the left atom |
| ParserFacts.SumDoesNotChain | vea/src/parser.rs:69-198 | `1 + 2 + 3` parses only `1 + 2` |
| ParserFacts.ChainedLetRejected | vea/src/parser.rs:201-215 | `let x = 1 + 2 + 3;` is not a `let` statement |
| ParserFacts.LetNeedsSemi | vea/src/parser.rs:204-205 | a `let` whose initializer is not followed by `;` fails |
| ParserFacts.DoubleEqualsIsNotEquality | vea/src/parser.rs:171-198 | `1 == 2` parses only the atom `1`, because `==` is no binary operator |
| ParserFacts.ProgramStartsWithStatement | vea/src/parser.rs:257 | a non-empty program starts with `{`, `let` or `if` |
| ParserFacts.StmtIsLet | vea/src/parser.rs:257 | a successful `let` is the statement chosen |
| ParserFacts.StmtIsIf | vea/src/parser.rs:257 | a successful `if` is the statement chosen |
| ParserFacts.FirstStatementThenJunk | vea/src/parser.rs:257 | a statement followed by tokens that start no statement makes the whole program fail |
| ParserFacts.PrintStatementRejected | vea/src/parser.rs:257 | the tokens of `let x = 0; print(x);` do not parse: the grammar has no print statement |
| ParserFacts.SimpleLet | vea/src/parser.rs:201-215 | `let` name `=` atom `;` is a five-token statement |
| ParserFacts.SingleStatement | vea/src/parser.rs:257 | one statement that consumes all tokens is the whole program |
| ParserFacts.AtomMaps | vea/src/parser.rs:27-57 | an identifier becomes a variable access carrying its name, `true` and `false` boolean literals, a number an integer literal with its value, a string a string literal with its text, `(` inline `)` a group of that inline expression ending after the `)`; any other token starts no atom |
| ParserFacts.BinaryFormSucceeds | vea/src/parser.rs:69-195 | a binary form succeeds exactly when an atom, the form's operator token and a second atom follow one another |
| ParserFacts.BinaryFormLeft | vea/src/parser.rs:69-195 | a binary form's left operand is the atom parsed at its start, and that atom ends before the end of the token list |
| ParserFacts.BinaryFormRight | vea/src/parser.rs:69-195 | a binary form's right operand is the atom parsed right after the operator token, and it ends where the form ends |
| ParserFacts.BinaryFormBuilt | vea/src/parser.rs:69-195 | two atoms around the form's operator token build that binary node, spanning from the first atom's start to the second's end |
| ParserFacts.UnaryFormParts | vea/src/parser.rs:60-67 | a unary form succeeds exactly when `!` or `-` is followed by an atom; its operator is `Not` for `!` and `Neg` for `-`, and its operand is that atom |
| ParserFacts.LetRuleParts | vea/src/parser.rs:201-215 | a `let` succeeds exactly when `let`, an identifier, `=`, an inline expression and `;` follow one another, and its initializer is the inline expression parsed after `=` |
| ParserFacts.BlockRuleParts | vea/src/parser.rs:217-227 | a block succeeds exactly when `{` is followed by the repeated statements and then `}`, and its statements are those the repetition parsed |
| ParserFacts.IfRuleParts | vea/src/parser.rs:229-255 | an `if` succeeds exactly when `if` is followed by a block; its then-block is that block; the `else` flag is set exactly when `else` follows the block; an else branch is what follows `else`, and with `else` but no branch the node ends after `else` |
| ParserFacts.DanglingElseAccepted | vea/src/parser.rs:232-236 | `if {} else` is accepted, with the `else` token recorded and no else branch |
| Pipeline.Kinds | vea/src/lib.rs:81 | the parser gets each token's kind, in order, and nothing else |
| Pipeline.ParseSeesOnlyKinds | vea/src/lib.rs:81-82 | token lists that differ only in offsets parse alike |
| Pipeline.TokenSpanToRange | vea/src/lib.rs:90-122 | a token-index span translates from the start of its first token to the end of its last, and is defined exactly when both tokens exist |
| Pipeline.RangeCoversTokens | vea/src/lib.rs:96-122 | over ordered tokens, a non-empty span translates to a forward range inside the source that covers each of its tokens |
| Pipeline.EmptySpanReversed | vea/src/lib.rs:96 | an empty span after the first token translates to an empty or reversed range |
| Pipeline.EndOfInputErrorPanics | vea/src/lib.rs:90 | the empty span `[n, n)` past the last of `n` tokens has no translation: the indexing panics. Parse errors carry no span in this model, so the premise, that chumsky reports an error at the end of the input with this span, is not modelled |
| Pipeline.DiagnosticRange | vea/src/lib.rs:90-96 | the corrected translation agrees with the one as written wherever that one is defined on a non-empty span; it starts at the span's first token and maps positions past the end to the end of the source |
| Pipeline.DiagnosticRangeInSource | vea/src/lib.rs:90-96 | every corrected diagnostic range is a forward range inside the source |
| Pipeline.InterpAsWritten | vea/src/lib.rs:110-135 | as written, output is passed through, and an error is translated exactly when its span's first token and last token exist, to the range from the one's start to the other's end |
| Pipeline.Interp | vea/src/lib.rs:110-135 | output is passed through; an error on a non-empty span is reported with the as-written range wherever that one does not panic |
| Pipeline.StatementErrorTranslates | vea/src/lib.rs:116-125 | a runtime error at any top-level statement of a parsed program translates without a panic to a range inside the source |
| Pipeline.LexMessages | vea/src/lib.rs:56-71 | one lexer diagnostic per error, in order |
| Pipeline.ReportLexErrors | vea/src/lib.rs:56-71 | the report loop writes exactly one diagnostic per error, in order |
| Pipeline.RunSource | vea/src/lib.rs:137-159 | the parser runs exactly when lexing produced tokens, on their kinds; the interpreter runs exactly when parsing produced a program; where the reporting as written panics, see `Pipeline.RunSource` under "## Left out" |
| Pipeline.Transcript | vea/src/lib.rs:137-159 | what a run writes starts with the lexer's diagnostics, in order, followed by at most two entries, each the syntax error or the interpreter's message, the syntax error first after the lexer's when parsing failed and the interpreter's message last when it ran |
| Pipeline.RunAll | vea/src/lib.rs:137-159 | `main` writes the lexer's diagnostics, then the syntax error or the interpreter's message, in stage order; where `parse` or `interp` as written panics before writing, the model writes that message instead (see `Pipeline.RunSource` under "## Left out") |
| Pipeline.LexFailureStopsEarly | vea/src/lib.rs:142-146 | a run whose lexing fails writes only lexer diagnostics, at least one |
| Resolution.Innermost | js/src/resolver.ts:127-134 | the scope searched out to is the innermost one holding the name; no scope inside it holds the name |
| Resolution.EndUndoesBegin | js/src/resolver.ts:98-104 | closing a freshly opened scope restores the state; the new scope is empty |
| Resolution.GlobalNamesUntracked | js/src/resolver.ts:106-122 | with no scope open, declaring and defining change nothing |
| Resolution.DeclareInnermost | js/src/resolver.ts:106-117 | declaring marks the name declared-not-defined in the innermost scope only, and reports it exactly when it was already there |
| Resolution.DefineInnermost | js/src/resolver.ts:119-125 | defining marks the name defined in the innermost scope only, and reports nothing |
| Resolution.ParamsInInnermost | js/src/resolver.ts:86-90 | after the parameter loop, every parameter is in the innermost scope |
| Resolution.LocalDepth | js/src/resolver.ts:127-134 | a name found in scope `i`, and in no scope inside it, is resolved at depth `height - 1 - i` |
| Resolution.LocalUnbound | js/src/resolver.ts:127-134 | a name in no scope is not resolved and nothing changes |
| Resolution.LocalReportsInnermost | js/src/resolver.ts:127-134 | resolving a variable either logs one depth, measured to the innermost scope holding the name, or changes nothing; the scopes are untouched |
| Resolution.StmtKeeps | js/src/resolver.ts:17-80 | a statement leaves the scope height, all outer scopes, the function and class kinds unchanged, and only appends to the log |
| Resolution.StmtsKeeps | js/src/resolver.ts:17-21 | the same holds for a statement list |
| Resolution.FnKeeps | js/src/resolver.ts:82-96 | in the corrected order, resolving a function restores the scopes and the enclosing function kind exactly |
| Resolution.MethodsKeep | js/src/resolver.ts:52-59 | in the corrected order, the method loop restores scopes and kinds |
| Resolution.HeadScopes | js/src/resolver.ts:30-47 | before the methods, the class name is defined in the current scope, and a `super` scope is open exactly when there is a superclass |
| Resolution.BodyKeeps | js/src/resolver.ts:49-61 | the `this` scope around the methods is closed again |
| Resolution.ClassKeeps | js/src/resolver.ts:29-66 | a class declaration leaves exactly the class name defined in the current scope, restores the enclosing class kind and appends to the log |
| Resolution.BlockRestoresScopes | js/src/resolver.ts:23-27 | a block leaves the scope stack exactly as it found it |
| Resolution.SelfInheritanceReported | js/src/resolver.ts:35-37 | a class naming itself as superclass is reported with "class cannot inherit itself" |
| Resolution.StmtsFirst | js/src/resolver.ts:17-21 | statements are resolved left to right |
| Resolution.ParamVisibleInBody | js/src/resolver.ts:82-96 | in the corrected order, a parameter used in the body is resolved at depth 0 |
| Resolution.ResolveFnAsWritten | js/src/resolver.ts:82-96 | as written, resolving a function keeps the scope height, the outer scopes and the enclosing function and class kinds, and only appends to the log; the caller's innermost scope is not claimed unchanged, since the body's own declarations land there |
| Resolution.BodySeesOuterScopesAsWritten | js/src/resolver.ts:86-93 | as written, the body is resolved against the caller's scopes, with none of the parameters |
| Resolution.ParamHiddenAsWritten | js/src/resolver.ts:86-93 | as written, `get(x) { x }` at top level resolves nothing; in the corrected order it resolves `x` at depth 0 |
| Resolver.Resolver.constructor | js/src/resolver.ts:9-15 | a fresh resolver has no scopes, no enclosing function or class and an empty log |
| Resolver.Resolver.Resolve | js/src/resolver.ts:17-21 | the loop leaves the state `Resolution.ResolveStmts` computes |
| Resolver.Resolver.VisitBlockStmt | js/src/resolver.ts:23-27 | the in-place block visit equals the block's resolution function |
| Resolver.Resolver.VisitClassStmt | js/src/resolver.ts:29-66 | the in-place class visit equals `Resolution.ResolveClass` |
| Resolver.Resolver.ResolveMethods | js/src/resolver.ts:52-59 | the method loop, with `init` as initializer, equals `Resolution.ResolveMethods` |
| Resolver.Resolver.VisitExpressionStmt | js/src/resolver.ts:68-70 | an expression statement resolves its expression |
| Resolver.Resolver.ResolveStatement | js/src/resolver.ts:74-76 | dispatch reaches the visit of the statement's own kind |
| Resolver.Resolver.ResolveExpr | js/src/resolver.ts:78-80 | a variable expression is resolved locally by its name, through the variable visit described under "Left out" |
| Resolver.Resolver.ResolveFn | js/src/resolver.ts:82-96 | the corrected function resolution: parameters declared in a scope that stays open for the body |
| Resolver.Resolver.BeginScope | js/src/resolver.ts:98-100 | pushes one empty scope |
| Resolver.Resolver.EndScope | js/src/resolver.ts:102-104 | pops one scope; popping an empty stack leaves it empty |
| Resolver.Resolver.Declare | js/src/resolver.ts:106-117 | equals `Resolution.Declare`, whose properties are `DeclareInnermost` and `GlobalNamesUntracked` |
| Resolver.Resolver.Define | js/src/resolver.ts:119-125 | equals `Resolution.Define` |
| Resolver.Resolver.ResolveLocal | js/src/resolver.ts:127-134 | the outward search loop logs the depth of the innermost scope holding the name, or nothing |

## Where the code and its description differ

The model follows the code in each of these cases.

- **Whitespace-only or unlexable tail.** Recovery skips one character at a time and gives up at the end of the input. So a source that is only whitespace, or whose last non-padding character starts no token (`@`), yields no token list at all rather than a partial one (`LexerFacts.UnlexableInput`).
- **Comment-only source.** Comments are padding around tokens. A source made only of a comment therefore has no token where the padding ends, and recovery relexes the comment's own characters as tokens (`LexerFacts.CommentOnlyRelexed`).
- **Leading zeros.** `text::int` reads a leading `0` by itself, so `007` is three `Number` tokens (`Lexer.NumAt`).
- **No parser recovery.** The parser has no recovery. One syntax error means no program, and the model records one `SyntaxError` message.
- **The demo program.** The demo program in `main`, `let x = 0; print(x);`, does not parse, because the grammar has no print statement (`ParserFacts.PrintStatementRejected`). Its run therefore stops after the syntax error.

## Left out

- Unicode whitespace: `padded` accepts any Unicode whitespace. The model accepts the six ASCII whitespace characters only.
- Byte offsets: chumsky's `&str` spans are byte offsets. The model counts characters, which agrees on ASCII sources.
- Error values: chumsky's `Rich` error values, their labels and expected-token sets are not modelled. A lexer diagnostic is kept only as the offset where the token was expected, that is, where the padding before the failed token ends. That is not always where chumsky's error points: for the unterminated literal `'abc` the model reports offset 0, while chumsky's error points at offset 4, where the closing quote is missing. A parse failure is `None` plus one `SyntaxError` message.
- Rendering: ariadne's report rendering and the writing to `stdout` are left out. Each report is a `Message` value.
- The interpreter: `exec` and `Env` (`vea/src/interpreter.rs`) are not part of this model. `Pipeline.RunSource` takes the interpreter as a function parameter.
- `Display` and the test module: these are presentation and are left out.
- The demo source: `main` hard-codes its source. `Pipeline.RunSource` and `Pipeline.RunAll` take the source as a parameter.
- Keyword and punctuation tokens in AST nodes: `let`, `=`, `;`, braces and `else` are recorded as token positions and an `else` flag, not as token values.
- Parser.Program: the spans of nested nodes are proved to lie inside their parents only through `WellFormed`. `Pipeline.StatementErrorTranslates` covers runtime errors at top-level statements, not at nested nodes.
- The resolver's expressions and other statements: `Expr` and `Stmt` are defined in files not part of this model (`js/src/expr.ts`, `js/src/stmt.ts`). Only block, class and expression statements are modelled as statements, because those are the statement visitors `resolver.ts` defines. Only variable references are modelled as expressions; see `Resolution.ResolveExpr` below.
- `accept` dispatch: it becomes a `match` on the statement kind.
- Resolution.ResolveExpr: `resolve_expr` calls `expr.accept(this)`, but `resolver.ts` defines no expression visitor, so what that visit does is not in the source. The model assumes the usual variable visit, which calls `resolve_local` with the variable's name. The same holds for `Resolver.Resolver.ResolveExpr`. Other expression kinds and their sub-expressions are not modelled.
- Lexer.StringAtAsWritten: it models only the slice as written. It decodes that slice with the corrected loop `Escapes.DecodeString`, because the loop as written never ends (`Escapes.AsWrittenLoopNeverExits`). So the source as written, with both defects together, never returns a string token, and no single member models that.
- Pipeline.Interp: it agrees with `Pipeline.InterpAsWritten` only on non-empty spans. On an empty span `[k, k)` with `1 <= k < n`, the translation as written gives the reversed range from the start of token `k` to the end of token `k - 1` (`Pipeline.EmptySpanReversed`). The corrected one gives the point at the start of token `k`. For example, with tokens `let` at 0-3 and `x` at 4-5 and the span `[1, 1)`, the code as written gives (4, 3) and the model gives (4, 4).
- Pipeline.RunSource: like `Pipeline.RunAll`, it uses the corrected `Pipeline.Interp`. In three cases `interp` as written panics at `t[y.start]` or `t[y.end - 1]` (lib.rs:118, 122), and `main` with it. The first is a span starting at or past the end of the token list. The second is a span ending past it. The third is a span ending at 0, such as `[0, 0)`, where `y.end - 1` underflows. In those cases the model writes a `RuntimeError` instead. Its range is the end of the source in the first case and ends at the last token in the second. In the third, when `y.start` is a token, it is the point at that token's start. `Pipeline.InterpAsWritten` returns `None` in all three. The same three cases make `parse` panic at `b[x.span().start]` or `b[x.span().end - 1]` (lib.rs:90, 96) when a parse error's span has that shape. One example is a parse error at the end of the input, with span `[n, n)` over `n` tokens, as for the missing `;` in `let x = 0` (`Pipeline.EndOfInputErrorPanics`). There `main` panics before it writes anything. Parse errors carry no span in this model, so `Pipeline.RunSource`, `Pipeline.Transcript` and `Pipeline.RunAll` write `SyntaxError` for every failed parse, including these.
- The resolver's collaborators: `Interpreter` and `Everest` are outside services. Their calls become `Resolved` and `Reported` entries in the log. A token is reduced to its lexeme.
- Resolver.Resolver.ResolveFn: follows the corrected order, with the parameter scope kept open for the body. The order as written is `Resolution.ResolveFnAsWritten`, with the consequence stated in `Resolution.BodySeesOuterScopesAsWritten` and `Resolution.ParamHiddenAsWritten`.
- Resolution.ResolveFn: the corrected order is what every statement-level member builds on: `Resolution.ResolveMethods`, `Resolution.ResolveClass`, `Resolution.ResolveStmt` and `Resolution.ResolveStmts`, and `Resolver.Resolver.Resolve`, `Resolver.Resolver.VisitClassStmt` and `Resolver.Resolver.ResolveMethods`. So the scopes and logs they state are those of the corrected resolver, not of `resolver.ts` as written. Only `Resolution.ResolveFnAsWritten` follows the order as written, and for it only `Keeps` is proved, not the exact scopes.
- `current_fn` and `current_class`: these are tracked and restored. Nothing in `resolver.ts` reads them, so no check that depends on them is modelled.

## Findings

| source | as written | input that shows it | evidently intended | confidence | as-written member | corrected member |
|---|---|---|---|---|---|---|
| vea/src/lexer.rs:106-125 | `idx` is advanced only when a backslash is seen, and never after a plain character or after the escape letter | any string literal, e.g. `'a'` (the slice starts with the quote) | advance past every character consumed, so the loop ends with the decoded text | high, not executed | Escapes.AsWrittenLoopNeverExits | Escapes.DecodeEscapes |
| vea/src/lexer.rs:98-101 | `map_slice` decodes the whole matched slice, quotes included | `'ab'`: decoded by the corrected loop, the slice gives `'ab'` with its quotes (with the loop as written it does not end at all, see the row above) | decode only the characters between the quotes | high, not executed | LexerFacts.StringSliceKeepsQuotes | LexerFacts.StringLiteralRoundTrip |
| vea/src/lib.rs:90, 96 | the error position `b[x.span().start]` and `b[x.span().end - 1]` index the token list directly | `let x = 0` (missing `;`: the error is at the end of the input, span `[4, 4)`, and `b[4]` is out of bounds) | report errors at or past the last token at the end of the source | medium, not executed | Pipeline.EndOfInputErrorPanics | Pipeline.DiagnosticRangeInSource |
| js/src/resolver.ts:86-93 | `end_scope` is called before `resolve(fn.body)`, so the body does not see the parameters | method `get(x) { x; }` at top level: `x` is not resolved | close the parameter scope after the body | high, not executed | Resolution.ParamHiddenAsWritten | Resolution.ParamVisibleInBody |

=== FILE: ast.dfy ===
/** The syntax tree the `vea` parser builds (vea/src/parser.rs). Every node is
    a `Span<Expr>` whose range counts token indices. The fixed tokens a node
    records (parentheses, braces, `let`, `=`, `;`, operator tokens) are
    implied by the node kind and are not stored. */
module Ast {
  import opened Wrappers
  import opened Spans
  import Tokens

  datatype Literal = Bool(b: bool) | Integer(n: Tokens.i64) | Str(s: string)

  datatype UnaryOp = Not | Neg

  datatype BinaryOp = Eq | Ne | Gt | Ge | Lt | Le | Mul | Div | Add | Sub

  datatype Expr =
    | Lit(value: Literal)
    | Access(ident: Span<string>)
    | Group(expr: Span<Expr>)
    | Unary(uop: UnaryOp, operand: Span<Expr>)
    | Binary(bop: BinaryOp, lhs: Span<Expr>, rhs: Span<Expr>)
    | Let(name: Span<string>, init: Span<Expr>)
    | Block(exprs: seq<Span<Expr>>)
    | If(thenBlock: Span<Expr>, elseToken: bool, other: Option<Span<Expr>>)

  /** The token that spells each binary operator. Equality is the single `=`. */
  function OpToken(op: BinaryOp): (t: Tokens.Token)
    ensures t != Tokens.EqEq
  {
    match op
    case Eq => Tokens.Eq
    case Ne => Tokens.Ne
    case Gt => Tokens.Gt
    case Ge => Tokens.Ge
    case Lt => Tokens.Lt
    case Le => Tokens.Le
    case Mul => Tokens.Star
    case Div => Tokens.Slash
    case Add => Tokens.Plus
    case Sub => Tokens.Minus
  }

  /** The token that spells each unary operator. */
  function UnaryToken(op: UnaryOp): Tokens.Token {
    match op
    case Not => Tokens.Bang
    case Neg => Tokens.Minus
  }

  /** `c` lies inside `p`. */
  predicate Inside<T, U>(c: Span<T>, p: Span<U>) {
    p.start <= c.start < c.end <= p.end
  }

  /** Every node is non-empty, each child lies inside its parent, and
      siblings follow one another without overlapping. */
  ghost predicate WellFormed(e: Span<Expr>)
    decreases e
  {
    && e.start < e.end
    && match e.item
       case Lit(_) => true
       case Access(id) => Inside(id, e)
       case Group(x) => Inside(x, e) && WellFormed(x)
       case Unary(_, x) => Inside(x, e) && WellFormed(x)
       case Binary(_, l, r) =>
         Inside(l, e) && Inside(r, e) && l.end <= r.start && WellFormed(l) && WellFormed(r)
       case Let(id, x) => Inside(id, e) && Inside(x, e) && id.end <= x.start && WellFormed(x)
       case Block(xs) =>
         && Ordered(xs, e.end)
         && (forall i :: 0 <= i < |xs| ==> Inside(xs[i], e) && WellFormed(xs[i]))
       case If(t, _, o) =>
         && Inside(t, e) && WellFormed(t)
         && (o.Some? ==> Inside(o.value, e) && t.end <= o.value.start && WellFormed(o.value))
  }

  /** The node kinds an atom produces. */
  predicate IsAtomNode(e: Expr) {
    e.Lit? || e.Access? || e.Group?
  }

  /** The node kinds a statement produces. */
  predicate IsStatementNode(e: Expr) {
    e.Block? || e.Let? || e.If?
  }

  /** Every node of `xs` is a well-formed statement. */
  ghost predicate Statements(xs: seq<Span<Expr>>) {
    forall i :: 0 <= i < |xs| ==> WellFormed(xs[i]) && IsStatementNode(xs[i].item)
  }

  lemma {:induction false} StatementsCons(x: Span<Expr>, xs: seq<Span<Expr>>)
    requires WellFormed(x) && IsStatementNode(x.item) && Statements(xs)
    ensures Statements([x] + xs)
  {
    var all := [x] + xs;
    assert forall i :: 1 <= i < |all| ==> all[i] == xs[i - 1];
  }
}

=== FILE: escapes.dfy ===
/** The escape decoder applied to string literals (vea/src/lexer.rs:101-128). */
module Escapes {
  import opened Wrappers
  import opened Tokens

  /** The character that a backslash followed by `c` stands for, if `c` is one
      of the six escape letters. */
  function EscapeChar(c: char): (r: Option<char>)
    ensures r.Some? <==> c in "ntr0\\'"
  {
    match c
    case 'n' => Some('\n')
    case 't' => Some('\t')
    case 'r' => Some('\r')
    case '0' => Some('\0')
    case '\\' => Some('\\')
    case '\'' => Some('\'')
    case _ => None
  }

  /** `p` in front of a decoded string; a failed decoding stays failed. */
  function Prepend(p: string, o: Option<string>): Option<string> {
    match o
    case Some(s) => Some(p + s)
    case None => None
  }

  lemma {:induction false} PrependTwice(p: string, q: string, o: Option<string>)
    ensures Prepend(p, Prepend(q, o)) == Prepend(p + q, o)
  {
    if o.Some? {
      assert p + (q + o.value) == (p + q) + o.value;
    }
  }

  lemma {:induction false} PrependNothing(o: Option<string>)
    ensures Prepend([], o) == o
  {
    if o.Some? {
      assert [] + o.value == o.value;
    }
  }

  /** The decoded text of a literal body: each plain character stands for
      itself, each valid escape for one character, and any other character
      after a backslash, or a backslash at the end, makes the literal invalid. */
  function Unescape(body: seq<char>): (r: Option<string>)
    ensures r.None? ==> '\\' in body
    decreases |body|
  {
    if |body| == 0 then Some([])
    else if body[0] != '\\' then Prepend([body[0]], Unescape(body[1..]))
    else if |body| == 1 then None
    else match EscapeChar(body[1])
      case None => None
      case Some(c) => Prepend([c], Unescape(body[2..]))
  }

  /** The token a literal body lexes to. */
  function DecodeString(body: seq<char>): (t: Token)
    ensures t.String? || t == Error(InvalidStringEscape)
    ensures t.String? ==> |t.text| <= |body|
    ensures t == Error(InvalidStringEscape) ==> '\\' in body
  {
    UnescapeLength(body);
    match Unescape(body)
    case Some(s) => String(s)
    case None => Error(InvalidStringEscape)
  }

  /** Each character of the decoded text comes from one or two characters
      of the body. */
  lemma {:induction false} UnescapeLength(body: seq<char>)
    ensures Unescape(body).Some? ==> |body| <= 2 * |Unescape(body).value| && |Unescape(body).value| <= |body|
    decreases |body|
  {
    if |body| > 0 {
      if body[0] != '\\' {
        UnescapeLength(body[1..]);
      } else if |body| > 1 {
        UnescapeLength(body[2..]);
      }
    }
  }

  /** The decoding loop, advancing one position past a plain character and
      two past an escape. */
  method DecodeEscapes(chars: seq<char>) returns (t: Token)
    ensures t == DecodeString(chars)
  {
    var buf: string := [];
    var idx := 0;
    assert chars[idx..] == chars;
    PrependNothing(Unescape(chars));
    while idx < |chars|
      invariant 0 <= idx <= |chars|
      invariant Unescape(chars) == Prepend(buf, Unescape(chars[idx..]))
      decreases |chars| - idx
    {
      var c := chars[idx];
      ghost var here := chars[idx..];
      assert here[1..] == chars[idx + 1..];
      if c == '\\' {
        idx := idx + 1;
        if idx == |chars| {
          assert Unescape(here) == None;
          return Error(InvalidStringEscape);
        }
        assert here[1] == chars[idx] && here[2..] == chars[idx + 1..];
        var e: char;
        match chars[idx] {
          case 'n' => e := '\n';
          case 't' => e := '\t';
          case 'r' => e := '\r';
          case '0' => e := '\0';
          case '\\' => e := '\\';
          case '\'' => e := '\'';
          case _ =>
            assert Unescape(here) == None;
            return Error(InvalidStringEscape);
        }
        assert EscapeChar(chars[idx]) == Some(e);
        assert Unescape(here) == Prepend([e], Unescape(chars[idx + 1..]));
        PrependTwice(buf, [e], Unescape(chars[idx + 1..]));
        buf := buf + [e];
        idx := idx + 1;
      } else {
        assert here[0] == c;
        assert Unescape(here) == Prepend([c], Unescape(chars[idx + 1..]));
        PrependTwice(buf, [c], Unescape(chars[idx + 1..]));
        buf := buf + [c];
        idx := idx + 1;
      }
    }
    assert chars[idx..] == [];
    t := String(buf);
  }

  /** The escaped spelling of one character: the inverse of `EscapeChar` on
      the six escapable characters. */
  function EscapeOne(c: char): seq<char> {
    match c
    case '\n' => "\\n"
    case '\t' => "\\t"
    case '\r' => "\\r"
    case '\0' => "\\0"
    case '\\' => "\\\\"
    case '\'' => "\\'"
    case _ => [c]
  }

  /** A literal body that decodes to `s`. */
  function Escape(s: string): seq<char> {
    if s == [] then [] else EscapeOne(s[0]) + Escape(s[1..])
  }

  /** Escaping introduces a quote only for a quote. */
  lemma {:induction false} EscapeNoQuote(s: string)
    requires '\'' !in s
    ensures '\'' !in Escape(s)
  {
    if s != [] {
      assert s[0] in s;
      assert forall c :: c in s[1..] ==> c in s;
      EscapeNoQuote(s[1..]);
      EscapeOneNoQuote(s[0]);
    }
  }

  lemma {:induction false} EscapeOneNoQuote(c: char)
    requires c != '\''
    ensures '\'' !in EscapeOne(c)
  {
  }

  lemma {:induction false} UnescapeEscapeOne(c: char, rest: seq<char>)
    ensures Unescape(EscapeOne(c) + rest) == Prepend([c], Unescape(rest))
  {
    var w := EscapeOne(c) + rest;
    if |EscapeOne(c)| == 1 {
      assert w[1..] == rest;
    } else {
      assert w[2..] == rest;
    }
  }

  /** Decoding undoes escaping. */
  lemma {:induction false} UnescapeEscape(s: string)
    ensures Unescape(Escape(s)) == Some(s)
  {
    if s != [] {
      UnescapeEscape(s[1..]);
      UnescapeEscapeOne(s[0], Escape(s[1..]));
      assert [s[0]] + s[1..] == s;
    }
  }

  /** A body without a backslash decodes to itself. */
  lemma {:induction false} UnescapePlain(body: seq<char>)
    requires '\\' !in body
    ensures Unescape(body) == Some(body)
  {
    if body != [] {
      assert body[0] in body;
      assert forall k :: 0 <= k < |body| - 1 ==> body[1..][k] == body[k + 1];
      UnescapePlain(body[1..]);
      assert [body[0]] + body[1..] == body;
    }
  }

  /** A body that decodes completely can be followed by anything: the
      decoding of the whole is the concatenation. */
  lemma {:induction false} UnescapeAppend(p: seq<char>, q: seq<char>)
    requires Unescape(p).Some?
    ensures Unescape(p + q) == Prepend(Unescape(p).value, Unescape(q))
  {
    var w := p + q;
    if p != [] {
      if p[0] != '\\' {
        assert w[1..] == p[1..] + q;
        UnescapeAppend(p[1..], q);
        PrependTwice([p[0]], Unescape(p[1..]).value, Unescape(q));
      } else {
        assert w[2..] == p[2..] + q;
        UnescapeAppend(p[2..], q);
        PrependTwice([EscapeChar(p[1]).value], Unescape(p[2..]).value, Unescape(q));
      }
    } else {
      assert w == q;
      PrependNothing(Unescape(q));
    }
  }

  /** An unknown escape letter invalidates the whole literal. */
  lemma {:induction false} InvalidEscapeRejected(p: seq<char>, c: char, q: seq<char>)
    requires Unescape(p).Some? && EscapeChar(c).None?
    ensures DecodeString(p + ['\\', c] + q) == Error(InvalidStringEscape)
  {
    var w := ['\\', c] + q;
    assert p + ['\\', c] + q == p + w;
    UnescapeAppend(p, w);
  }

  /** So does a backslash at the very end. */
  lemma {:induction false} TrailingBackslashRejected(p: seq<char>)
    requires Unescape(p).Some?
    ensures DecodeString(p + ['\\']) == Error(InvalidStringEscape)
  {
    UnescapeAppend(p, ['\\']);
  }

  /** The worked examples `'a\nb'` and `'a\qb'`. */
  lemma {:induction false} DecodeExamples()
    ensures DecodeString("a\\nb") == String("a\nb")
    ensures DecodeString("a\\qb") == Error(InvalidStringEscape)
  {
    assert "a\\nb"[1..] == "\\nb";
    assert "\\nb"[2..] == "b";
    assert "a\\qb"[1..] == "\\qb";
  }

  // ---- The loop exactly as written ----

  /** The decoder's loop state: still looping at `idx` with `buf` built so far,
      or returned `result`. */
  datatype LoopState = Running(idx: nat, buf: string) | Finished(result: Token)

  /** One pass of the loop body as written at lexer.rs:106-124: `idx` moves
      only when a backslash is seen, and stays put after a plain character or
      after the escape letter has been decoded. */
  function StepAsWritten(chars: seq<char>, st: LoopState): (r: LoopState)
    ensures st.Finished? ==> r == st
    ensures st.Running? && st.idx >= |chars| ==> r == Finished(String(st.buf))
    ensures st.Running? && r.Running? ==>
              && st.idx < |chars| && |r.buf| == |st.buf| + 1 && r.buf[..|st.buf|] == st.buf
              && (if chars[st.idx] == '\\' then r.idx == st.idx + 1 else r.idx == st.idx)
  {
    match st
    case Finished(_) => st
    case Running(idx, buf) =>
      if idx >= |chars| then Finished(String(buf))
      else if chars[idx] == '\\' then
        if idx + 1 < |chars| && EscapeChar(chars[idx + 1]).Some? then
          Running(idx + 1, buf + [EscapeChar(chars[idx + 1]).value])
        else Finished(Error(InvalidStringEscape))
      else Running(idx, buf + [chars[idx]])
  }

  /** The state after `n` passes, from `idx == 0` and an empty buffer. */
  function RunAsWritten(chars: seq<char>, n: nat): (r: LoopState)
    ensures r.Running? ==> |r.buf| == n && r.idx <= n
  {
    if n == 0 then Running(0, []) else StepAsWritten(chars, RunAsWritten(chars, n - 1))
  }

  function Repeat(c: char, n: nat): (r: string)
    ensures |r| == n && forall k :: 0 <= k < n ==> r[k] == c
  {
    if n == 0 then [] else Repeat(c, n - 1) + [c]
  }

  /** As written, the loop never leaves a slice whose first character is not a
      backslash — and the slice it is given always starts with the opening
      quote: after any number of passes it is still at index 0, copying that
      character again and again. */
  lemma {:induction false} AsWrittenLoopNeverExits(chars: seq<char>, n: nat)
    requires |chars| > 0 && chars[0] != '\\'
    ensures RunAsWritten(chars, n) == Running(0, Repeat(chars[0], n))
  {
    if n > 0 {
      AsWrittenLoopNeverExits(chars, n - 1);
    }
  }
}

=== FILE: lexer.dfy ===
/** The tokenizer of vea/src/lexer.rs: six ordered token recognisers, padding
    of whitespace and `//` comments, and skip-one-character recovery. Offsets
    count characters of the source text. */
module Lexer {
  import opened Wrappers
  import opened Spans
  import opened Tokens
  import Escapes

  // ---- Character classes ----

  predicate IsDigit(c: char) { '0' <= c <= '9' }

  /** `one_of("abcdefghijklmnopqrstuvwxyz_")` */
  predicate IsIdentChar(c: char) { 'a' <= c <= 'z' || c == '_' }

  predicate IsWhitespace(c: char) {
    c == ' ' || c == '\t' || c == '\n' || c == '\r' || c == 11 as char || c == 12 as char
  }

  datatype CharClass = Digits | IdentChars | NotQuote | NotNewline

  predicate InClass(c: char, cls: CharClass) {
    match cls
    case Digits => IsDigit(c)
    case IdentChars => IsIdentChar(c)
    case NotQuote => c != '\''
    case NotNewline => c != '\n'
  }

  /** The end of the longest run of `cls` characters starting at `p` (a
      greedy `repeated()`). */
  function RunEnd(s: string, p: nat, cls: CharClass): (e: nat)
    requires p <= |s|
    ensures p <= e <= |s|
    ensures forall k :: p <= k < e ==> InClass(s[k], cls)
    ensures e == |s| || !InClass(s[e], cls)
    decreases |s| - p
  {
    if p < |s| && InClass(s[p], cls) then RunEnd(s, p + 1, cls) else p
  }

  /** `just(w)` succeeds at `p`. */
  predicate StartsWith(s: string, p: nat, w: string) {
    p + |w| <= |s| && s[p..p + |w|] == w
  }

  // ---- Integers ----

  function DigitValue(c: char): nat
    requires IsDigit(c)
  {
    c as int - '0' as int
  }

  predicate AllDigits(ds: string) {
    forall k :: 0 <= k < |ds| ==> IsDigit(ds[k])
  }

  /** The mathematical value of a decimal digit string. */
  function DecimalValue(ds: string): nat
    requires AllDigits(ds)
    decreases |ds|
  {
    if ds == [] then 0 else DecimalValue(ds[..|ds| - 1]) * 10 + DigitValue(ds[|ds| - 1])
  }

  /** `text::int(10).from_str()` at lexer.rs:86-88: a lone `0`, or a nonzero
      digit followed by the longest run of digits. The digits become
      `Number` when their value fits in an `i64` and `Error(IntegerOverflow)`
      otherwise; the value is never wrapped. */
  function NumAt(s: string, p: nat): (r: Option<(Token, nat)>)
    requires p <= |s|
    ensures r.Some? <==> p < |s| && IsDigit(s[p])
    ensures r.Some? ==> p < r.value.1 <= |s| && AllDigits(s[p..r.value.1])
    ensures r.Some? && s[p] == '0' ==> r.value == (Number(0), p + 1)
    ensures r.Some? && s[p] != '0' ==> r.value.1 == |s| || !IsDigit(s[r.value.1])
    ensures r.Some? ==>
              var v := DecimalValue(s[p..r.value.1]);
              r.value.0 == if v <= I64Max then Number(v as i64) else Error(IntegerOverflow)
  {
    if p < |s| && s[p] == '0' then
      assert DecimalValue(s[p..p + 1]) == 0 by {
        assert s[p..p + 1][..0] == [];
      }
      Some((Number(0), p + 1))
    else if p < |s| && IsDigit(s[p]) then
      var e := RunEnd(s, p, Digits);
      var v := DecimalValue(s[p..e]);
      Some((if v <= I64Max then Number(v as i64) else Error(IntegerOverflow), e))
    else None
  }

  // ---- Ordered choices of fixed spellings ----

  type Table = seq<(string, Token)>

  const Keywords: Table := [
    ("let", Let), ("if", If), ("else", Else), ("true", True),
    ("false", False), ("print", Print), ("while", While), ("for", For)
  ]

  const Operators: Table := [
    ("&=", AndEq), ("!=", Ne), ("==", EqEq), (">=", Ge), ("<=", Le),
    ("^=", CaretEq), ("+=", PlusEq), ("%=", PercentEq), ("-=", MinusEq),
    ("<<=", ShlEq), (">>=", ShrEq), ("*=", StarEq), (">>", Shr), ("/=", SlashEq),
    ("<<", Shl), ("|=", PipeEq),
    ("+", Plus), ("-", Minus), ("*", Star), ("/", Slash), ("=", Eq), ("!", Bang),
    ("_", Underscore), (">", Gt), ("<", Lt), ("~", Tilde), ("|", Pipe), ("&", And),
    ("^", Caret), ("?", Question), ("%", Percent)
  ]

  const Controls: Table := [
    ("{", LeftBrace), ("}", RightBrace), ("[", LeftBracket), ("]", RightBracket),
    ("(", LeftParen), (")", RightParen), (",", Comma), (";", Semi)
  ]

  /** The first entry from index `k` on whose spelling starts at `p`. */
  function FirstMatchFrom(table: Table, s: string, p: nat, k: nat): (r: Option<nat>)
    requires k <= |table|
    ensures r.Some? ==> k <= r.value < |table| && StartsWith(s, p, table[r.value].0)
    ensures forall i :: k <= i < |table| && (r.None? || i < r.value) ==> !StartsWith(s, p, table[i].0)
    decreases |table| - k
  {
    if k == |table| then None
    else if StartsWith(s, p, table[k].0) then Some(k)
    else FirstMatchFrom(table, s, p, k + 1)
  }

  predicate NonEmptySpellings(table: Table) {
    forall i :: 0 <= i < |table| ==> |table[i].0| > 0
  }

  /** `choice!` over `just(spelling).to(token)` alternatives: the first
      alternative that matches wins, and consumes its spelling. */
  function TableAt(table: Table, s: string, p: nat): (r: Option<(Token, nat)>)
    requires NonEmptySpellings(table) && p <= |s|
    ensures r.Some? ==> p < r.value.1 <= |s| && (s[p..r.value.1], r.value.0) in table
    ensures r.None? <==> forall i :: 0 <= i < |table| ==> !StartsWith(s, p, table[i].0)
  {
    match FirstMatchFrom(table, s, p, 0)
    case Some(i) => Some((table[i].1, p + |table[i].0|))
    case None => None
  }

  // ---- The six recognisers ----

  /** `kw` at lexer.rs:181-190. */
  function KwAt(s: string, p: nat): (r: Option<(Token, nat)>)
    requires p <= |s|
    ensures r.Some? ==> p < r.value.1 <= |s| && IsKeyword(r.value.0)
  {
    TableAt(Keywords, s, p)
  }

  /** `ident` at lexer.rs:91-96: the longest run of one or more of `a`-`z`
      and `_`. */
  function IdentAt(s: string, p: nat): (r: Option<(Token, nat)>)
    requires p <= |s|
    ensures r.Some? <==> p < |s| && IsIdentChar(s[p])
    ensures r.Some? ==>
              var e := r.value.1;
              && p < e <= |s| && r.value.0 == Ident(s[p..e])
              && (forall k :: p <= k < e ==> IsIdentChar(s[k]))
              && (e == |s| || !IsIdentChar(s[e]))
  {
    if p < |s| && IsIdentChar(s[p]) then
      var e := RunEnd(s, p, IdentChars);
      Some((Ident(s[p..e]), e))
    else None
  }

  /** `op` at lexer.rs:132-166. */
  function OpAt(s: string, p: nat): (r: Option<(Token, nat)>)
    requires p <= |s|
    ensures r.Some? ==> p < r.value.1 <= |s| && (s[p..r.value.1], r.value.0) in Operators
    ensures r.None? <==> forall i :: 0 <= i < |Operators| ==> !StartsWith(s, p, Operators[i].0)
  {
    TableAt(Operators, s, p)
  }

  /** `ctrl` at lexer.rs:168-179. */
  function CtrlAt(s: string, p: nat): (r: Option<(Token, nat)>)
    requires p <= |s|
    ensures r.Some? ==> r.value.1 == p + 1 <= |s|
  {
    TableAt(Controls, s, p)
  }

  /** `string` at lexer.rs:98-130: a quote, the longest run of non-quote
      characters, and a closing quote; the body between the quotes is
      decoded. */
  function StringAt(s: string, p: nat): (r: Option<(Token, nat)>)
    requires p <= |s|
    ensures r.Some? <==> p < |s| && s[p] == '\'' && RunEnd(s, p + 1, NotQuote) < |s|
    ensures r.Some? ==>
              var e := r.value.1;
              && p + 2 <= e <= |s| && s[e - 1] == '\''
              && (forall k :: p < k < e - 1 ==> s[k] != '\'')
              && r.value.0 == Escapes.DecodeString(s[p + 1..e - 1])
  {
    if p < |s| && s[p] == '\'' then
      var q := RunEnd(s, p + 1, NotQuote);
      if q < |s| then Some((Escapes.DecodeString(s[p + 1..q]), q + 1)) else None
    else None
  }

  /** The string recogniser with the slice as written: `map_slice` hands the
      decoder the whole matched slice, the two quotes included. That slice is
      decoded here by the corrected loop `Escapes.DecodeString`, since the
      loop as written does not end (`Escapes.AsWrittenLoopNeverExits`); this
      isolates the slice defect from the loop defect. */
  function StringAtAsWritten(s: string, p: nat): (r: Option<(Token, nat)>)
    requires p <= |s|
    ensures r.Some? <==> StringAt(s, p).Some?
    ensures r.Some? ==> r.value.1 == StringAt(s, p).value.1
                        && r.value.0 == Escapes.DecodeString(s[p..r.value.1])
  {
    if p < |s| && s[p] == '\'' then
      var q := RunEnd(s, p + 1, NotQuote);
      if q < |s| then Some((Escapes.DecodeString(s[p..q + 1]), q + 1)) else None
    else None
  }

  /** `token` at lexer.rs:200-207: integer, keyword, identifier, operator,
      control, string, in that order. No token is ever `Underscore`: a `_`
      is an identifier character, and identifiers are tried first. */
  function TokenAt(s: string, p: nat): (r: Option<(Token, nat)>)
    requires p <= |s|
    ensures r.Some? ==> p < r.value.1 <= |s| && r.value.0 != Underscore
  {
    var num := NumAt(s, p);
    if num.Some? then num else
    var kw := KwAt(s, p);
    if kw.Some? then kw else
    var ident := IdentAt(s, p);
    if ident.Some? then ident else
    var op := OpAt(s, p);
    if op.Some? then
      OpNotUnderscore(s, p);
      op
    else
    var ctrl := CtrlAt(s, p);
    if ctrl.Some? then ctrl else
    StringAt(s, p)
  }

  /** `Underscore` is the alternative spelled `_`, and no other is. */
  lemma {:induction false} UnderscoreSpelling()
    ensures forall i | 0 <= i < |Operators| :: Operators[i].1 == Underscore ==> i == 22
    ensures Operators[22].0 == "_"
  {
    forall i | 0 <= i < |Operators| ensures Operators[i].1 == Underscore ==> i == 22 {
      if i < 16 {} else {}
    }
  }

  lemma {:induction false} OpNotUnderscore(s: string, p: nat)
    requires p < |s| && s[p] != '_'
    ensures OpAt(s, p).None? || OpAt(s, p).value.0 != Underscore
  {
    UnderscoreSpelling();
    assert !StartsWith(s, p, Operators[22].0);
    var m := FirstMatchFrom(Operators, s, p, 0);
    if m.Some? {
      assert m.value != 22;
      assert Operators[m.value].1 != Underscore;
    }
  }

  // ---- Padding ----

  /** The position after the whitespace and `//` comments (up to, not
      including, the next newline) that start at `p`. */
  function SkipPadding(s: string, p: nat): (q: nat)
    requires p <= |s|
    ensures p <= q <= |s|
    ensures q == |s| || (!IsWhitespace(s[q]) && !StartsWith(s, q, "//"))
    decreases |s| - p
  {
    if p == |s| then p
    else if IsWhitespace(s[p]) then SkipPadding(s, p + 1)
    else if StartsWith(s, p, "//") then SkipPadding(s, RunEnd(s, p + 2, NotNewline))
    else p
  }

  // ---- The whole tokenizer ----

  /** The token list, if the whole input was consumed, and the offsets of the
      lexical diagnostics. */
  datatype LexOutput = LexOutput(tokens: Option<seq<Span<Token>>>, errors: seq<nat>)

  function Cons(t: Span<Token>, out: LexOutput): LexOutput {
    LexOutput(if out.tokens.Some? then Some([t] + out.tokens.value) else None, out.errors)
  }

  /** Well-formed output for the input from `lo` on: tokens non-empty,
      ordered, inside `[lo, |s|)`, never `Underscore`, never starting on
      padding; diagnostics inside the input. */
  ghost predicate ValidOutput(s: string, lo: nat, out: LexOutput) {
    && (forall i :: 0 <= i < |out.errors| ==> out.errors[i] <= |s|)
    && (out.tokens.Some? ==>
          var ts := out.tokens.value;
          && Ordered(ts, |s|)
          && AllWithin(ts, lo, |s|)
          && (forall i :: 0 <= i < |ts| ==> ts[i].item != Underscore)
          && (forall i :: 0 <= i < |ts| ==> !IsWhitespace(s[ts[i].start]) && !StartsWith(s, ts[i].start, "//")))
  }

  lemma {:induction false} ConsValid(s: string, lo: nat, t: Span<Token>, out: LexOutput)
    requires lo <= t.start < t.end <= |s| && t.item != Underscore
    requires !IsWhitespace(s[t.start]) && !StartsWith(s, t.start, "//")
    requires ValidOutput(s, t.end, out)
    ensures ValidOutput(s, lo, Cons(t, out))
  {
    if out.tokens.Some? {
      var ts := [t] + out.tokens.value;
      assert forall i :: 1 <= i < |ts| ==> ts[i] == out.tokens.value[i - 1];
    }
  }

  /** One repetition of `token.padded_by(comment.repeated()).padded()`
      starting at `p`, then the rest. A failed attempt starts the recovery of
      lexer.rs:213 from `p`, and its diagnostic sits where the token was
      expected. */
  function LexFrom(s: string, p: nat): (r: LexOutput)
    requires p <= |s|
    ensures ValidOutput(s, p, r)
    decreases |s| - p
  {
    if p == |s| then LexOutput(Some([]), [])
    else
      var q := SkipPadding(s, p);
      match TokenAt(s, q)
      case Some((t, e)) =>
        var rest := LexFrom(s, SkipPadding(s, e));
        ConsValid(s, p, Span(t, q, e), rest);
        Cons(Span(t, q, e), rest)
      case None => RecoverFrom(s, q, p + 1)
  }

  /** `skip_then_retry_until(any(), end())` after one or more characters have
      been skipped, up to `p`: retry the padded token; if it fails, give up at
      the end of input, else skip one more character. One diagnostic is
      reported per recovery. Giving up leaves input unconsumed, so the whole
      parse has no output. */
  function RecoverFrom(s: string, errAt: nat, p: nat): (r: LexOutput)
    requires 0 < p <= |s| && errAt <= |s|
    ensures ValidOutput(s, p, r)
    decreases |s| - p
  {
    var q := SkipPadding(s, p);
    match TokenAt(s, q)
    case Some((t, e)) =>
      var rest := LexFrom(s, SkipPadding(s, e));
      ConsValid(s, p, Span(t, q, e), rest);
      var out := Cons(Span(t, q, e), rest);
      LexOutput(out.tokens, [errAt] + out.errors)
    case None =>
      if p == |s| then LexOutput(None, [errAt]) else RecoverFrom(s, errAt, p + 1)
  }

  /** `lexer().parse(src)` */
  function Lex(s: string): (r: LexOutput)
    ensures ValidOutput(s, 0, r)
  {
    LexFrom(s, 0)
  }
}

=== FILE: lexer_facts.dfy ===
/** Properties of the tokenizer model in module Lexer. */
module LexerFacts {
  import opened Wrappers
  import opened Spans
  import opened Tokens
  import opened Lexer
  import Escapes

  // ---- Integers ----

  function DigitChar(d: nat): (c: char)
    requires d < 10
    ensures IsDigit(c) && DigitValue(c) == d
  {
    ('0' as int + d) as char
  }

  /** The decimal spelling of `n`, without leading zeros. */
  function Decimal(n: nat): (ds: string)
    ensures |ds| > 0 && AllDigits(ds)
    ensures n > 0 ==> ds[0] != '0'
    ensures n == 0 ==> ds == "0"
  {
    if n < 10 then [DigitChar(n)] else Decimal(n / 10) + [DigitChar(n % 10)]
  }

  lemma {:induction false} DecimalValueOfDecimal(n: nat)
    ensures DecimalValue(Decimal(n)) == n
  {
    var ds := Decimal(n);
    if n >= 10 {
      assert ds[..|ds| - 1] == Decimal(n / 10);
      DecimalValueOfDecimal(n / 10);
    } else {
      assert ds[..0] == [];
    }
  }

  /** Lexing the decimal spelling of any natural number gives back that
      number when it fits in an `i64`, and the overflow marker when it does
      not; the whole spelling is one token either way. */
  lemma {:induction false} NumberRoundTrip(n: nat)
    ensures NumAt(Decimal(n), 0) ==
            Some((if n <= I64Max then Number(n as i64) else Error(IntegerOverflow), |Decimal(n)|))
  {
    var s := Decimal(n);
    DecimalValueOfDecimal(n);
    if n > 0 {
      assert s[0..|s|] == s;
    }
  }

  // ---- Keywords before identifiers ----

  /** Two spellings that both start at `p`: the shorter is a prefix of the
      longer. */
  lemma {:induction false} BothStartAt(s: string, p: nat, u: string, w: string)
    requires StartsWith(s, p, u) && StartsWith(s, p, w) && |u| <= |w|
    ensures w[..|u|] == u
  {
    assert w[..|u|] == s[p..p + |w|][..|u|] == s[p..p + |u|];
  }

  /** The first two letters of each keyword, which tell them all apart. */
  const KeywordHeads: seq<string> := ["le", "if", "el", "tr", "fa", "pr", "wh", "fo"]

  lemma {:induction false} KeywordHeadsDistinct()
    ensures |KeywordHeads| == |Keywords|
    ensures forall k | 0 <= k < |Keywords| :: |Keywords[k].0| >= 2 && Keywords[k].0[..2] == KeywordHeads[k]
    ensures forall a, b | 0 <= a < b < |KeywordHeads| :: KeywordHeads[a] != KeywordHeads[b]
  {
    forall a, b | 0 <= a < b < |KeywordHeads| ensures KeywordHeads[a] != KeywordHeads[b] {
      assert KeywordHeads[a][0] != KeywordHeads[b][0] || KeywordHeads[a][1] != KeywordHeads[b][1];
    }
  }

  /** No keyword is a prefix of another. */
  lemma {:induction false} KeywordsPrefixFree()
    ensures forall i, j | 0 <= i < |Keywords| && 0 <= j < |Keywords| && i != j ::
              !(|Keywords[i].0| <= |Keywords[j].0| && Keywords[j].0[..|Keywords[i].0|] == Keywords[i].0)
  {
    KeywordHeadsDistinct();
  }

  /** Wherever a keyword's spelling starts, the keyword token is produced,
      never an identifier; only its own letters are consumed, so `letter`
      begins with `Let`. */
  lemma {:induction false} KeywordBeatsIdent(s: string, p: nat, i: nat)
    requires p <= |s| && i < |Keywords| && StartsWith(s, p, Keywords[i].0)
    ensures TokenAt(s, p) == Some((Keywords[i].1, p + |Keywords[i].0|))
  {
    assert s[p] == s[p..p + |Keywords[i].0|][0];
    assert !IsDigit(s[p]);
    var m := FirstMatchFrom(Keywords, s, p, 0);
    var j := m.value;
    if j != i {
      KeywordsPrefixFree();
      if |Keywords[j].0| <= |Keywords[i].0| {
        BothStartAt(s, p, Keywords[j].0, Keywords[i].0);
      } else {
        BothStartAt(s, p, Keywords[i].0, Keywords[j].0);
      }
    }
  }

  // ---- Operators: longest spelling first ----

  ghost predicate IsProperPrefix(u: string, w: string) {
    |u| < |w| && w[..|u|] == u
  }

  /** No operator alternative is a proper prefix of a later one. */
  lemma {:induction false} OperatorsOrdered()
    ensures forall i, j | 0 <= i < j < |Operators| :: !IsProperPrefix(Operators[i].0, Operators[j].0)
  {
    MultiCharOperatorsFirst();
    assert forall k | 0 <= k < 16 && k != 9 && k != 10 :: |Operators[k].0| == 2;
    assert forall k | 0 <= k < 9 :: Operators[k].0 != "<<" && Operators[k].0 != ">>";
    forall i, j | 0 <= i < j < |Operators|
      ensures !IsProperPrefix(Operators[i].0, Operators[j].0)
    {
      if j == 9 || j == 10 {
        assert Operators[j].0[..2] == if j == 9 then "<<" else ">>";
      }
    }
  }

  /** Every 2- and 3-character spelling comes before every 1-character one. */
  lemma {:induction false} MultiCharOperatorsFirst()
    ensures forall i | 0 <= i < |Operators| :: (i < 16 <==> |Operators[i].0| > 1)
  {
    forall i | 0 <= i < |Operators| ensures i < 16 <==> |Operators[i].0| > 1 {
      if i < 16 {} else {}
    }
  }

  /** The operator recogniser takes the longest spelling that starts at `p`:
      no other alternative would have consumed more. */
  lemma {:induction false} OperatorLongestMatch(s: string, p: nat, i: nat)
    requires p <= |s| && OpAt(s, p).Some?
    requires i < |Operators| && StartsWith(s, p, Operators[i].0)
    ensures p + |Operators[i].0| <= OpAt(s, p).value.1
  {
    var j := FirstMatchFrom(Operators, s, p, 0).value;
    if |Operators[j].0| < |Operators[i].0| {
      BothStartAt(s, p, Operators[j].0, Operators[i].0);
      OperatorsOrdered();
      assert false;
    }
  }

  // ---- Strings ----

  /** Between an opening and a closing quote with no quote in between, the
      body run stops at the closing quote. */
  lemma {:induction false} QuotedRunEnd(s: string)
    requires |s| >= 2 && s[0] == '\'' && s[|s| - 1] == '\''
    requires forall k | 1 <= k < |s| - 1 :: s[k] != '\''
    ensures RunEnd(s, 1, NotQuote) == |s| - 1
  {
  }

  /** A quote, `body` and a quote, where `body` has no quote. */
  lemma {:induction false} Quoted(body: string)
    requires '\'' !in body
    ensures var s := "'" + body + "'";
            && |s| == |body| + 2 && s[0] == '\'' && s[|s| - 1] == '\''
            && s[1..|s| - 1] == body
            && forall k | 1 <= k < |s| - 1 :: s[k] != '\''
  {
    var s := "'" + body + "'";
    forall k | 1 <= k < |s| - 1 ensures s[k] != '\'' {
      assert s[k] == body[k - 1];
      assert body[k - 1] in body;
    }
    assert s[1..|s| - 1] == body;
  }

  /** A string without a quote, escaped and put between quotes, lexes back to
      itself as one token. */
  lemma {:induction false} StringLiteralRoundTrip(t: string)
    requires '\'' !in t
    ensures StringAt("'" + Escapes.Escape(t) + "'", 0) == Some((String(t), |Escapes.Escape(t)| + 2))
  {
    var body := Escapes.Escape(t);
    Escapes.EscapeNoQuote(t);
    Escapes.UnescapeEscape(t);
    Quoted(body);
    QuotedRunEnd("'" + body + "'");
  }

  /** Decoding the slice as written, even with the corrected loop, keeps the
      quotes: a literal `'t'` without backslashes becomes the string `'t'`
      rather than `t`. */
  lemma {:induction false} StringSliceKeepsQuotes(t: string)
    requires '\\' !in t && '\'' !in t
    ensures StringAtAsWritten("'" + t + "'", 0) == Some((String("'" + t + "'"), |t| + 2))
    ensures StringAt("'" + t + "'", 0) == Some((String(t), |t| + 2))
  {
    var s := "'" + t + "'";
    Quoted(t);
    QuotedRunEnd(s);
    assert s[0..|s|] == s;
    assert '\\' !in s by {
      forall k | 0 <= k < |s| ensures s[k] != '\\' {
        if 1 <= k <= |t| {
          assert s[k] == t[k - 1];
          assert t[k - 1] in t;
        }
      }
    }
    Escapes.UnescapePlain(t);
    Escapes.UnescapePlain(s);
  }

  // ---- Which recogniser answers ----

  lemma {:induction false} KeywordsStartWithLetters()
    ensures forall k | 0 <= k < |Keywords| :: 'a' <= Keywords[k].0[0] <= 'z'
  {
  }

  /** The characters an operator spelling can start with. */
  predicate OperatorStart(c: char) {
    c == '&' || c == '!' || c == '=' || c == '>' || c == '<' || c == '^' || c == '+' || c == '%'
    || c == '-' || c == '*' || c == '/' || c == '|' || c == '~' || c == '?' || c == '_'
  }

  /** The characters a control spelling consists of. */
  predicate ControlChar(c: char) {
    c == '{' || c == '}' || c == '[' || c == ']' || c == '(' || c == ')' || c == ',' || c == ';'
  }

  lemma {:induction false} OperatorsStartWithSymbols()
    ensures forall k | 0 <= k < |Operators| :: OperatorStart(Operators[k].0[0])
  {
    forall k | 0 <= k < |Operators| ensures OperatorStart(Operators[k].0[0]) {
      if k < 16 {} else {}
    }
  }

  /** The keyword recogniser answers only at a lower-case letter. */
  lemma {:induction false} KwNeedsLetter(s: string, p: nat)
    requires p <= |s| && KwAt(s, p).Some?
    ensures p < |s| && 'a' <= s[p] <= 'z'
  {
    var k := FirstMatchFrom(Keywords, s, p, 0).value;
    assert s[p..p + |Keywords[k].0|][0] == s[p];
    KeywordsStartWithLetters();
  }

  /** The operator recogniser answers only at an operator character. */
  lemma {:induction false} OpNeedsSymbol(s: string, p: nat)
    requires p <= |s| && OpAt(s, p).Some?
    ensures p < |s| && OperatorStart(s[p])
  {
    var k := FirstMatchFrom(Operators, s, p, 0).value;
    assert s[p..p + |Operators[k].0|][0] == s[p];
    OperatorsStartWithSymbols();
  }

  /** At a character that is neither a digit nor a letter, the number,
      keyword and identifier recognisers all decline. */
  lemma {:induction false} NoWordAt(s: string, p: nat)
    requires p < |s| && !IsDigit(s[p]) && !IsIdentChar(s[p])
    ensures NumAt(s, p).None? && KwAt(s, p).None? && IdentAt(s, p).None?
  {
    if KwAt(s, p).Some? {
      KwNeedsLetter(s, p);
    }
  }

  /** Such a character is therefore lexed by the operator recogniser when it
      answers. */
  lemma {:induction false} TokenAtIsOp(s: string, p: nat)
    requires p < |s| && !IsDigit(s[p]) && !IsIdentChar(s[p]) && OpAt(s, p).Some?
    ensures TokenAt(s, p) == OpAt(s, p)
  {
    NoWordAt(s, p);
  }

  lemma {:induction false} OperatorsNonEmpty()
    ensures NonEmptySpellings(Operators)
  {
    forall k | 0 <= k < |Operators| ensures |Operators[k].0| > 0 {
      if k < 16 {} else {}
    }
  }

  /** The first matching entry is the one found. */
  lemma {:induction false} FirstMatchIs(table: Table, s: string, p: nat, k: nat, i: nat)
    requires k <= i < |table| && StartsWith(s, p, table[i].0)
    requires forall j | k <= j < i :: !StartsWith(s, p, table[j].0)
    ensures FirstMatchFrom(table, s, p, k) == Some(i)
    decreases i - k
  {
    if k < i {
      FirstMatchIs(table, s, p, k + 1, i);
    }
  }

  /** A table whose entries from `k` on all fail to match finds nothing. */
  lemma {:induction false} NoMatchFrom(table: Table, s: string, p: nat, k: nat)
    requires k <= |table|
    requires forall j | k <= j < |table| :: !StartsWith(s, p, table[j].0)
    ensures FirstMatchFrom(table, s, p, k).None?
    decreases |table| - k
  {
    if k < |table| {
      NoMatchFrom(table, s, p, k + 1);
    }
  }

  /** A table answers with the first entry that matches. */
  lemma {:induction false} TableAtFirst(table: Table, s: string, p: nat, i: nat)
    requires NonEmptySpellings(table) && p <= |s|
    requires i < |table| && FirstMatchFrom(table, s, p, 0) == Some(i)
    ensures TableAt(table, s, p) == Some((table[i].1, p + |table[i].0|))
  {
  }

  /** The entry that wins is the first whose spelling starts at `p`,
      whatever entries follow it. */
  lemma {:induction false} TableAtIsFirstMatch(table: Table, s: string, p: nat, i: nat)
    requires NonEmptySpellings(table) && p <= |s|
    requires i < |table| && StartsWith(s, p, table[i].0)
    requires forall j :: 0 <= j < i ==> !StartsWith(s, p, table[j].0)
    ensures TableAt(table, s, p) == Some((table[i].1, p + |table[i].0|))
  {
    var m := FirstMatchFrom(table, s, p, 0);
    assert m.Some? && m.value == i;
  }

  /** At a character that is not a digit or a letter, the operator
      alternatives are tried, in order. */
  lemma {:induction false} TokenAtOperator(s: string, p: nat, i: nat)
    requires p < |s| && !IsDigit(s[p]) && !IsIdentChar(s[p])
    requires i < |Operators| && FirstMatchFrom(Operators, s, p, 0) == Some(i)
    ensures TokenAt(s, p) == Some((Operators[i].1, p + |Operators[i].0|))
  {
    OperatorsNonEmpty();
    TableAtFirst(Operators, s, p, i);
    TokenAtIsOp(s, p);
  }

  lemma {:induction false} ControlsSingleChars()
    ensures forall k | 0 <= k < |Controls| :: |Controls[k].0| == 1 && ControlChar(Controls[k].0[0])
    ensures forall j, k | 0 <= j < k < |Controls| :: Controls[j].0[0] != Controls[k].0[0]
  {
  }

  /** The control recogniser answers at each control character with its
      token. */
  lemma {:induction false} CtrlAtIndex(s: string, p: nat, i: nat)
    requires p < |s| && i < |Controls| && s[p] == Controls[i].0[0]
    ensures CtrlAt(s, p) == Some((Controls[i].1, p + 1))
  {
    ControlsSingleChars();
    assert s[p..p + 1] == Controls[i].0;
    FirstMatchIs(Controls, s, p, 0, i);
    TableAtFirst(Controls, s, p, i);
  }

  /** The control recogniser answers only at a control character. */
  lemma {:induction false} CtrlNeedsControl(s: string, p: nat)
    requires p <= |s| && CtrlAt(s, p).Some?
    ensures p < |s| && ControlChar(s[p])
  {
    var k := FirstMatchFrom(Controls, s, p, 0).value;
    ControlsSingleChars();
    assert s[p..p + 1][0] == s[p];
  }

  /** No recogniser answers at the end of the input, or at a character that
      starts no token. */
  lemma {:induction false} NoTokenAt(s: string, p: nat)
    requires p <= |s|
    requires p < |s| ==> !IsDigit(s[p]) && !IsIdentChar(s[p]) && !OperatorStart(s[p])
                         && !ControlChar(s[p]) && s[p] != '\''
    ensures TokenAt(s, p).None?
  {
    if KwAt(s, p).Some? {
      KwNeedsLetter(s, p);
    }
    if OpAt(s, p).Some? {
      OpNeedsSymbol(s, p);
    }
    if CtrlAt(s, p).Some? {
      CtrlNeedsControl(s, p);
    }
  }

  /** At a control character, the control alternatives answer. */
  lemma {:induction false} TokenAtControl(s: string, p: nat, i: nat)
    requires p < |s| && i < |Controls| && s[p] == Controls[i].0[0]
    ensures TokenAt(s, p) == Some((Controls[i].1, p + 1))
  {
    ControlsSingleChars();
    assert ControlChar(s[p]);
    NoWordAt(s, p);
    if OpAt(s, p).Some? {
      OpNeedsSymbol(s, p);
    }
    CtrlAtIndex(s, p, i);
  }

  // ---- Worked examples ----

  /** One step of the tokenizer: the token found after the padding, then the
      rest. */
  lemma {:induction false} LexStep(s: string, p: nat, t: Token, e: nat)
    requires p < |s| && SkipPadding(s, p) <= |s|
    requires TokenAt(s, SkipPadding(s, p)) == Some((t, e))
    ensures LexFrom(s, p) == Cons(Span(t, SkipPadding(s, p), e), LexFrom(s, SkipPadding(s, e)))
  {
  }

  /** Padding ends at a character that is neither whitespace nor the start
      of a comment. */
  lemma {:induction false} PaddingStops(s: string, p: nat)
    requires p < |s| && !IsWhitespace(s[p]) && s[p] != '/'
    ensures SkipPadding(s, p) == p
  {
    if p + 2 <= |s| {
      assert s[p..p + 2][0] == s[p];
    }
  }

  /** An input that is exactly one token. */
  lemma {:induction false} LexSingle(s: string, t: Token)
    requires |s| > 0 && SkipPadding(s, 0) == 0 && TokenAt(s, 0) == Some((t, |s|))
    ensures Lex(s) == LexOutput(Some([Span(t, 0, |s|)]), [])
  {
    LexStep(s, 0, t, |s|);
    assert [Span(t, 0, |s|)] + [] == [Span(t, 0, |s|)];
  }

  /** On `<<=` the first operator alternative that matches is the tenth,
      `ShlEq`. */
  lemma {:induction false} ShlEqMatchesFirst(s: string)
    requires |s| == 3 && s[0] == '<' && s[1] == '<' && s[2] == '='
    ensures FirstMatchFrom(Operators, s, 0, 0) == Some(9)
  {
    forall j | 0 <= j < 9 ensures !StartsWith(s, 0, Operators[j].0) {
      var w := Operators[j].0;
      assert |w| == 2 && w[1] == '=';
      assert s[0..2][1] == '<';
    }
    assert s[0..3] == Operators[9].0;
    FirstMatchIs(Operators, s, 0, 0, 9);
  }

  lemma {:induction false} ShlEqEntry()
    ensures Operators[9] == ("<<=", ShlEq)
  {
  }

  /** `<<=` is one `ShlEq` token: the three-character alternatives come
      before `<<` and `<`. */
  lemma {:induction false} ShiftAssignIsOneToken(s: string)
    requires |s| == 3 && s[0] == '<' && s[1] == '<' && s[2] == '='
    ensures Lex(s) == LexOutput(Some([Span(ShlEq, 0, 3)]), [])
  {
    PaddingStops(s, 0);
    ShlEqToken(s);
    LexSingle(s, ShlEq);
  }

  lemma {:induction false} ShlEqToken(s: string)
    requires |s| == 3 && s[0] == '<' && s[1] == '<' && s[2] == '='
    ensures TokenAt(s, 0) == Some((ShlEq, 3))
  {
    ShlEqEntry();
    ShlEqMatchesFirst(s);
    TokenAtOperator(s, 0, 9);
  }

  /** No keyword matches where the next two characters begin none of them. */
  lemma {:induction false} NoKeywordAt(s: string, p: nat)
    requires p + 2 <= |s| && s[p..p + 2] !in KeywordHeads
    ensures FirstMatchFrom(Keywords, s, p, 0).None?
  {
    KeywordHeadsDistinct();
    forall j | 0 <= j < |Keywords| ensures !StartsWith(s, p, Keywords[j].0) {
      var w := Keywords[j].0;
      assert KeywordHeads[j] in KeywordHeads;
      assert p + |w| <= |s| ==> s[p..p + |w|][..2] == s[p..p + 2];
    }
    NoMatchFrom(Keywords, s, p, 0);
  }

  /** At an identifier character where no keyword matches, the identifier
      recogniser answers. */
  lemma {:induction false} TokenAtIdent(s: string, p: nat)
    requires p < |s| && IsIdentChar(s[p]) && FirstMatchFrom(Keywords, s, p, 0).None?
    ensures TokenAt(s, p) == IdentAt(s, p)
  {
  }

  /** The tokenizer's output from `p` when a token is found after the
      padding and the rest lexes cleanly. */
  lemma {:induction false} LexThen(s: string, p: nat, a: Span<Token>, rest: seq<Span<Token>>)
    requires p < |s| && SkipPadding(s, p) == a.start && TokenAt(s, a.start) == Some((a.item, a.end))
    requires LexFrom(s, SkipPadding(s, a.end)) == LexOutput(Some(rest), [])
    ensures LexFrom(s, p) == LexOutput(Some([a] + rest), [])
  {
    LexStep(s, p, a.item, a.end);
  }

  /** `letter` is the keyword `let` followed by the identifier `ter`: keywords
      are tried before identifiers and are not required to end at a word
      boundary. */
  lemma {:induction false} KeywordPrefixSplits(s: string)
    requires s == "letter"
    ensures Lex(s) == LexOutput(Some([Span(Let, 0, 3), Span(Ident("ter"), 3, 6)]), [])
  {
    LetterHead(s);
    LetterTail(s);
    LexThen(s, 0, Span(Let, 0, 3), [Span(Ident("ter"), 3, 6)]);
    assert [Span(Let, 0, 3)] + [Span(Ident("ter"), 3, 6)] == [Span(Let, 0, 3), Span(Ident("ter"), 3, 6)];
  }

  /** `letter` starts with the keyword `let`. */
  lemma {:induction false} LetterHead(s: string)
    requires s == "letter"
    ensures |s| == 6 && SkipPadding(s, 0) == 0 && TokenAt(s, 0) == Some((Let, 3))
  {
    assert |s| == 6;
    PaddingStops(s, 0);
    assert StartsWith(s, 0, Keywords[0].0);
    KeywordBeatsIdent(s, 0, 0);
  }

  /** After `let`, the rest of `letter` is one identifier. */
  lemma {:induction false} LetterTail(s: string)
    requires s == "letter"
    ensures SkipPadding(s, 3) == 3 && LexFrom(s, 3) == LexOutput(Some([Span(Ident("ter"), 3, 6)]), [])
  {
    assert |s| == 6;
    PaddingStops(s, 3);
    assert s[3..5] == "te";
    NoKeywordAt(s, 3);
    TokenAtIdent(s, 3);
    var e := IdentAt(s, 3).value.1;
    assert e == 6;
    assert s[3..6] == "ter";
    assert SkipPadding(s, 6) == 6;
    assert LexFrom(s, 6) == LexOutput(Some([]), []);
    LexThen(s, 3, Span(Ident("ter"), 3, 6), []);
    assert [Span(Ident("ter"), 3, 6)] + [] == [Span(Ident("ter"), 3, 6)];
  }

  /** Whitespace and comments in front of a token produce nothing: lexing
      from before them is lexing from the token. */
  lemma {:induction false} PaddingIsSkipped(s: string, p: nat)
    requires p <= |s| && SkipPadding(s, p) < |s| && TokenAt(s, SkipPadding(s, p)).Some?
    ensures LexFrom(s, p) == LexFrom(s, SkipPadding(s, p))
  {
    var q := SkipPadding(s, p);
    assert SkipPadding(s, q) == q;
  }

  lemma {:induction false} SlashEntry()
    ensures Operators[19] == ("/", Slash)
  {
  }

  /** A `/` not followed by `=` matches the alternative `/` first. */
  lemma {:induction false} SlashMatchesFirst(s: string, p: nat)
    requires p < |s| && s[p] == '/' && (p + 1 == |s| || s[p + 1] != '=')
    ensures FirstMatchFrom(Operators, s, p, 0) == Some(19)
  {
    forall j | 0 <= j < 19 ensures !StartsWith(s, p, Operators[j].0) {
      var w := Operators[j].0;
      if j == 13 {
        if p + 2 <= |s| {
          assert s[p..p + 2][1] == s[p + 1];
        }
      } else {
        assert w[0] != '/';
        if p + |w| <= |s| {
          assert s[p..p + |w|][0] == s[p];
        }
      }
    }
    assert s[p..p + 1] == Operators[19].0;
    FirstMatchIs(Operators, s, p, 0, 19);
  }

  lemma {:induction false} SlashToken(s: string, p: nat)
    requires p < |s| && s[p] == '/' && (p + 1 == |s| || s[p + 1] != '=')
    ensures TokenAt(s, p) == Some((Slash, p + 1))
  {
    SlashEntry();
    SlashMatchesFirst(s, p);
    TokenAtOperator(s, p, 19);
  }

  /** In `//x` the comment runs to the end of the input. */
  lemma {:induction false} CommentToEnd(s: string)
    requires |s| == 3 && s[0] == '/' && s[1] == '/' && s[2] == 'x'
    ensures SkipPadding(s, 0) == 3 && TokenAt(s, 3).None?
  {
    assert StartsWith(s, 0, "//") by {
      assert s[0..2] == "//";
    }
    assert RunEnd(s, 2, NotNewline) == 3;
    NoTokenAt(s, 3);
  }

  /** One character in, `/x` is the operator `/` ... */
  lemma {:induction false} SlashHead(s: string)
    requires |s| == 3 && s[0] == '/' && s[1] == '/' && s[2] == 'x'
    ensures SkipPadding(s, 1) == 1 && TokenAt(s, 1) == Some((Slash, 2))
  {
    assert !StartsWith(s, 1, "//") by {
      assert s[1..3][1] == 'x';
    }
    SlashToken(s, 1);
  }

  /** ... followed by the identifier `x`. */
  lemma {:induction false} IdentTail(s: string)
    requires |s| == 3 && s[0] == '/' && s[1] == '/' && s[2] == 'x'
    ensures SkipPadding(s, 2) == 2 && LexFrom(s, 2) == LexOutput(Some([Span(Ident("x"), 2, 3)]), [])
  {
    PaddingStops(s, 2);
    KeywordHeadsDistinct();
    NoMatchFrom(Keywords, s, 2, 0);
    TokenAtIdent(s, 2);
    assert s[2..3] == "x";
    LexThen(s, 2, Span(Ident("x"), 2, 3), []);
    assert [Span(Ident("x"), 2, 3)] + [] == [Span(Ident("x"), 2, 3)];
  }

  /** A recovery that finds a token after the padding resumes lexing there,
      and its diagnostic comes first. */
  lemma {:induction false} RecoverThen(s: string, errAt: nat, p: nat, a: Span<Token>, rest: seq<Span<Token>>)
    requires 0 < p <= |s| && errAt <= |s|
    requires SkipPadding(s, p) == a.start && TokenAt(s, a.start) == Some((a.item, a.end))
    requires LexFrom(s, SkipPadding(s, a.end)) == LexOutput(Some(rest), [])
    ensures RecoverFrom(s, errAt, p) == LexOutput(Some([a] + rest), [errAt])
  {
    assert [errAt] + [] == [errAt];
  }

  /** An input that is only a comment is not discarded: the padded token
      fails at the end of the input, and the recovery retries one character
      in, where `/` is an operator. */
  lemma {:induction false} CommentOnlyRelexed(s: string)
    requires |s| == 3 && s[0] == '/' && s[1] == '/' && s[2] == 'x'
    ensures Lex(s) == LexOutput(Some([Span(Slash, 1, 2), Span(Ident("x"), 2, 3)]), [3])
  {
    CommentToEnd(s);
    LexFails(s, 0);
    RecoveryRelexes(s);
  }

  /** The recovery after the comment, one character in. */
  lemma {:induction false} RecoveryRelexes(s: string)
    requires |s| == 3 && s[0] == '/' && s[1] == '/' && s[2] == 'x'
    ensures RecoverFrom(s, 3, 1) == LexOutput(Some([Span(Slash, 1, 2), Span(Ident("x"), 2, 3)]), [3])
  {
    SlashHead(s);
    IdentTail(s);
    RecoverThen(s, 3, 1, Span(Slash, 1, 2), [Span(Ident("x"), 2, 3)]);
    assert [Span(Slash, 1, 2)] + [Span(Ident("x"), 2, 3)] == [Span(Slash, 1, 2), Span(Ident("x"), 2, 3)];
  }

  /** A failed attempt starts the recovery. */
  lemma {:induction false} LexFails(s: string, p: nat)
    requires p < |s| && SkipPadding(s, p) <= |s| && TokenAt(s, SkipPadding(s, p)).None?
    ensures LexFrom(s, p) == RecoverFrom(s, SkipPadding(s, p), p + 1)
  {
  }

  /** A recovery that reaches the end of the input gives up. */
  lemma {:induction false} RecoveryGivesUp(s: string, errAt: nat)
    requires 0 < |s| && errAt <= |s| && TokenAt(s, |s|).None?
    ensures RecoverFrom(s, errAt, |s|) == LexOutput(None, [errAt])
  {
  }

  /** An input that starts no token at all has no token list, and one
      diagnostic at its start. */
  lemma {:induction false} UnlexableInput(s: string)
    requires s == "@"
    ensures Lex(s) == LexOutput(None, [0])
  {
    assert |s| == 1;
    PaddingStops(s, 0);
    NoTokenAt(s, 0);
    LexFails(s, 0);
    NoTokenAt(s, 1);
    RecoveryGivesUp(s, 0);
  }

  /** A recovery reports its diagnostic first, whatever follows. */
  lemma {:induction false} RecoveryReports(s: string, errAt: nat, p: nat)
    requires 0 < p <= |s| && errAt <= |s|
    ensures RecoverFrom(s, errAt, p).errors != [] && RecoverFrom(s, errAt, p).errors[0] == errAt
    decreases |s| - p
  {
    if TokenAt(s, SkipPadding(s, p)).None? && p < |s| {
      RecoveryReports(s, errAt, p + 1);
    }
  }

  /** Recovery from `p`: when the padded token fails at every start in
      `[p, k)`, the recovery skips to `k`. If a token is read there, lexing
      resumes after it and the one diagnostic `errAt` heads the rest's; if
      none is read there and `k` is the end, the recovery gives up. */
  lemma {:induction false} RecoveryResumes(s: string, errAt: nat, p: nat, k: nat)
    requires 0 < p <= k <= |s| && errAt <= |s|
    requires forall j :: p <= j < k ==> TokenAt(s, SkipPadding(s, j)).None?
    ensures var q := SkipPadding(s, k); var a := TokenAt(s, q);
            a.Some? ==>
              var out := Cons(Span(a.value.0, q, a.value.1), LexFrom(s, SkipPadding(s, a.value.1)));
              RecoverFrom(s, errAt, p) == LexOutput(out.tokens, [errAt] + out.errors)
    ensures TokenAt(s, SkipPadding(s, k)).None? && k == |s| ==> RecoverFrom(s, errAt, p) == LexOutput(None, [errAt])
    decreases k - p
  {
    if p < k {
      assert TokenAt(s, SkipPadding(s, p)).None?;
      RecoveryResumes(s, errAt, p + 1, k);
    }
  }

  /** Lexing never fails silently: without tokens there is a diagnostic. */
  lemma {:induction false} FailureReported(s: string, p: nat)
    requires p <= |s| && LexFrom(s, p).tokens.None?
    ensures LexFrom(s, p).errors != []
    decreases |s| - p
  {
    if p < |s| {
      var q := SkipPadding(s, p);
      match TokenAt(s, q)
      case Some((t, e)) => FailureReported(s, SkipPadding(s, e));
      case None => RecoveryReports(s, q, p + 1);
    }
  }

  // ---- Padding is whitespace and comment text ----

  /** Position `k` lies in a `//` comment opened at or after `p`: a `//`
      starts at some `c` in `[p, k]` and no newline comes between `c` and
      `k`. */
  ghost predicate InComment(s: string, p: nat, k: nat) {
    exists c :: p <= c <= k && StartsWith(s, c, "//") && forall j :: c <= j <= k ==> j < |s| && s[j] != '\n'
  }

  /** Padding from `p` skips only whitespace and comment text, and stops at
      the first character that is neither. */
  lemma {:induction false} PaddingIsBlank(s: string, p: nat)
    requires p <= |s|
    ensures var q := SkipPadding(s, p);
            && (forall k :: p <= k < q ==> IsWhitespace(s[k]) || InComment(s, p, k))
            && (q == |s| || !InComment(s, p, q))
    decreases |s| - p
  {
    if p < |s| && IsWhitespace(s[p]) {
      PaddingIsBlank(s, p + 1);
      BlankAfterSpace(s, p, SkipPadding(s, p + 1));
    } else if p < |s| && StartsWith(s, p, "//") {
      var e := RunEnd(s, p + 2, NotNewline);
      PaddingIsBlank(s, e);
      BlankAfterComment(s, p, e, SkipPadding(s, e));
    }
  }

  /** A whitespace character at `p` opens no comment, so padding that is
      blank from `p + 1` is blank from `p`. */
  lemma {:induction false} BlankAfterSpace(s: string, p: nat, q: nat)
    requires p < q <= |s| && IsWhitespace(s[p])
    requires forall k :: p + 1 <= k < q ==> IsWhitespace(s[k]) || InComment(s, p + 1, k)
    requires q == |s| || !InComment(s, p + 1, q)
    ensures forall k :: p <= k < q ==> IsWhitespace(s[k]) || InComment(s, p, k)
    ensures q == |s| || !InComment(s, p, q)
  {
    if p + 2 <= |s| {
      assert s[p..p + 2][0] == s[p];
    }
    forall k | p < k < q && !IsWhitespace(s[k]) ensures InComment(s, p, k) {
      assert InComment(s, p + 1, k);
    }
  }

  /** A comment from `p` to the newline at `e`, then padding that is blank
      from `e`, is blank from `p`. */
  lemma {:induction false} BlankAfterComment(s: string, p: nat, e: nat, q: nat)
    requires p < |s| && StartsWith(s, p, "//") && e == RunEnd(s, p + 2, NotNewline) && e <= q <= |s|
    requires forall k :: e <= k < q ==> IsWhitespace(s[k]) || InComment(s, e, k)
    requires q == |s| || !InComment(s, e, q)
    ensures forall k :: p <= k < q ==> IsWhitespace(s[k]) || InComment(s, p, k)
    ensures q == |s| || !InComment(s, p, q)
  {
    assert s[p..p + 2][0] == s[p] && s[p..p + 2][1] == s[p + 1];
    forall k | p <= k < q ensures IsWhitespace(s[k]) || InComment(s, p, k) {
      if k < e {
        assert forall j :: p <= j <= k ==> j < |s| && s[j] != '\n';
      } else if !IsWhitespace(s[k]) {
        assert InComment(s, e, k);
      }
    }
    if q < |s| {
      forall c | p <= c <= q && StartsWith(s, c, "//") ensures exists j :: c <= j <= q && s[j] == '\n' {
        if c < e {
          assert c <= e <= q && s[e] == '\n';
        }
      }
    }
  }

  // ---- A clean lex tiles the input ----

  /** `ts` tiles the input from `p` on: the first token starts where the
      padding at `p` ends and is what `TokenAt` reads there, the rest tile
      the input from its end, and an empty list leaves only padding. */
  ghost predicate Tiles(s: string, p: nat, ts: seq<Span<Token>>)
    requires p <= |s|
    decreases |ts|
  {
    if ts == [] then SkipPadding(s, p) == |s|
    else
      && ts[0].start == SkipPadding(s, p)
      && TokenAt(s, ts[0].start) == Some((ts[0].item, ts[0].end))
      && Tiles(s, ts[0].end, ts[1..])
  }

  lemma {:induction false} PaddingIdempotent(s: string, p: nat)
    requires p <= |s|
    ensures SkipPadding(s, SkipPadding(s, p)) == SkipPadding(s, p)
  {
  }

  /** A tiling from `p` is a tiling from the end of the padding at `p`. */
  lemma {:induction false} TilesAfterPadding(s: string, p: nat, ts: seq<Span<Token>>)
    requires p <= |s|
    ensures Tiles(s, p, ts) <==> Tiles(s, SkipPadding(s, p), ts)
  {
    PaddingIdempotent(s, p);
  }

  /** A lex from `p` without diagnostics tiles the input from `p`, and is
      empty only at the end of the input. */
  lemma {:induction false} CleanLexTiles(s: string, p: nat)
    requires p <= |s|
    ensures var r := LexFrom(s, p);
            r.errors == [] && r.tokens.Some? ==>
              Tiles(s, p, r.tokens.value) && (r.tokens.value == [] ==> p == |s|)
    decreases |s| - p
  {
    if p < |s| {
      var q := SkipPadding(s, p);
      match TokenAt(s, q)
      case None =>
        LexFails(s, p);
        RecoveryReports(s, q, p + 1);
      case Some((t, e)) =>
        var q2 := SkipPadding(s, e);
        LexStep(s, p, t, e);
        CleanLexTiles(s, q2);
        var rest := LexFrom(s, q2);
        if rest.errors == [] && rest.tokens.Some? {
          TilesAfterPadding(s, e, rest.tokens.value);
          assert ([Span(t, q, e)] + rest.tokens.value)[1..] == rest.tokens.value;
        }
    }
  }

  /** Conversely, a tiling from `p`, empty only at the end of the input, is
      what the lexer returns from `p`, with no diagnostics. */
  lemma {:induction false} TilingLexes(s: string, p: nat, ts: seq<Span<Token>>)
    requires p <= |s| && Tiles(s, p, ts) && (ts == [] ==> p == |s|)
    ensures LexFrom(s, p) == LexOutput(Some(ts), [])
    decreases |s| - p
  {
    if ts != [] {
      var q := SkipPadding(s, p);
      var e := ts[0].end;
      var tail := ts[1..];
      assert q < |s| && TokenAt(s, q) == Some((ts[0].item, e)) && Tiles(s, e, tail);
      LexStep(s, p, ts[0].item, e);
      var q2 := SkipPadding(s, e);
      TilesAfterPadding(s, e, tail);
      TilingLexes(s, q2, tail);
      assert [Span(ts[0].item, q, e)] + tail == ts;
    }
  }

  /** The tokenizer's promise: it returns a token list without diagnostics
      exactly when that list tiles the source, each token read by `TokenAt`
      with only padding before, between and after the tokens. */
  lemma {:induction false} LexIsTiling(s: string, ts: seq<Span<Token>>)
    ensures Lex(s) == LexOutput(Some(ts), []) <==> Tiles(s, 0, ts) && (ts == [] ==> s == [])
  {
    CleanLexTiles(s, 0);
    if Tiles(s, 0, ts) && (ts == [] ==> s == []) {
      TilingLexes(s, 0, ts);
    }
  }

  // ---- Numbers and strings as whole inputs ----

  /** At a digit the integer recogniser, tried first, decides the token. */
  lemma {:induction false} TokenAtDigit(s: string, p: nat)
    requires p < |s| && IsDigit(s[p])
    ensures TokenAt(s, p) == NumAt(s, p)
  {
  }

  /** At a quote every other recogniser declines, so the string recogniser
      decides the token. */
  lemma {:induction false} TokenAtQuote(s: string, p: nat)
    requires p < |s| && s[p] == '\''
    ensures TokenAt(s, p) == StringAt(s, p)
  {
    NoWordAt(s, p);
    if OpAt(s, p).Some? {
      OpNeedsSymbol(s, p);
    }
    if CtrlAt(s, p).Some? {
      CtrlNeedsControl(s, p);
    }
  }

  /** The decimal spelling of `n`, as a whole source, lexes to the single
      token `Number(n)`, or to the overflow marker when `n` does not fit. */
  lemma {:induction false} NumberLexes(n: nat)
    ensures var s := Decimal(n);
            Lex(s) == LexOutput(Some([Span(if n <= I64Max then Number(n as i64) else Error(IntegerOverflow), 0, |s|)]), [])
  {
    var s := Decimal(n);
    PaddingStops(s, 0);
    TokenAtDigit(s, 0);
    NumberRoundTrip(n);
    LexSingle(s, if n <= I64Max then Number(n as i64) else Error(IntegerOverflow));
  }

  /** A quote-free string, escaped and quoted, as a whole source lexes to
      the single token carrying that string. */
  lemma {:induction false} StringLexes(t: string)
    requires '\'' !in t
    ensures var s := "'" + Escapes.Escape(t) + "'";
            Lex(s) == LexOutput(Some([Span(String(t), 0, |s|)]), [])
  {
    var s := "'" + Escapes.Escape(t) + "'";
    assert s[0] == '\'';
    PaddingStops(s, 0);
    TokenAtQuote(s, 0);
    StringLiteralRoundTrip(t);
    LexSingle(s, String(t));
  }
}

=== FILE: parser.dfy ===
/** The `vea` parser (vea/src/parser.rs): a grammar over token kinds whose
    alternatives are tried in order, each one starting again from the same
    position. Each rule takes the token sequence and a position and answers
    with a node and the position after it, or `None`. */
module Parser {
  import opened Wrappers
  import opened Spans
  import opened Ast
  import T = Tokens

  /** A rule's answer fits when its node starts at `pos`, ends where parsing
      resumes, stays inside the input and is well formed. */
  ghost predicate Fits(ts: seq<T.Token>, pos: nat, r: Option<(Span<Expr>, nat)>) {
    r.Some? ==> r.value.0.start == pos && r.value.0.end == r.value.1 <= |ts| && WellFormed(r.value.0)
  }

  /** The tokens an atom can start with. */
  predicate IsAtomToken(t: T.Token) {
    t.Ident? || t.True? || t.False? || t.Number? || t.String? || t.LeftParen?
  }

  /** An inline node's operands: both sides of a binary form and the operand
      of a unary form are atoms, each operator sits in the one token between
      them, and a bare atom is an atom node. */
  ghost predicate InlineShape(ts: seq<T.Token>, e: Span<Expr>) {
    match e.item
    case Binary(op, l, x) =>
      && IsAtomNode(l.item) && IsAtomNode(x.item)
      && l.start == e.start && x.start == l.end + 1 && x.end == e.end
      && l.end < |ts| && ts[l.end] == OpToken(op)
    case Unary(op, x) =>
      && IsAtomNode(x.item) && e.start < |ts| && ts[e.start] == UnaryToken(op)
      && x.start == e.start + 1 && x.end == e.end
    case _ => IsAtomNode(e.item)
  }

  /** The binary forms in the order parser.rs:198 tries them: `eq`, `cmp`,
      `product`, `sum`, each in its own declared order. */
  const BinaryOps: seq<BinaryOp> := [Eq, Ne, Gt, Ge, Lt, Le, Mul, Div, Add, Sub]

  /** `atom` (parser.rs:27-58): a single literal or identifier token, or an
      inline expression in parentheses. */
  function Atom(ts: seq<T.Token>, pos: nat): (r: Option<(Span<Expr>, nat)>)
    requires pos <= |ts|
    ensures Fits(ts, pos, r)
    ensures r.Some? ==> pos < |ts| && IsAtomToken(ts[pos]) && IsAtomNode(r.value.0.item)
    decreases |ts| - pos, 0, 0
  {
    if pos == |ts| then None
    else match ts[pos]
      case Ident(n) => Some((Span(Access(Span(n, pos, pos + 1)), pos, pos + 1), pos + 1))
      case True => Some((Span(Lit(Bool(true)), pos, pos + 1), pos + 1))
      case False => Some((Span(Lit(Bool(false)), pos, pos + 1), pos + 1))
      case Number(v) => Some((Span(Lit(Integer(v)), pos, pos + 1), pos + 1))
      case String(t) => Some((Span(Lit(Str(t)), pos, pos + 1), pos + 1))
      case LeftParen =>
        (match Inline(ts, pos + 1)
         case Some((x, q)) =>
           if q < |ts| && ts[q] == T.RightParen then Some((Span(Group(x), pos, q + 1), q + 1)) else None
         case None => None)
      case _ => None
  }

  /** One binary form: an atom, the operator's token, an atom. */
  function BinaryForm(ts: seq<T.Token>, pos: nat, op: BinaryOp): (r: Option<(Span<Expr>, nat)>)
    requires pos <= |ts|
    ensures Fits(ts, pos, r)
    ensures r.Some? ==> r.value.0.item.Binary? && r.value.0.item.bop == op && InlineShape(ts, r.value.0)
    decreases |ts| - pos, 1, 0
  {
    match Atom(ts, pos)
    case None => None
    case Some((l, q)) =>
      if q < |ts| && ts[q] == OpToken(op) then
        match Atom(ts, q + 1)
        case None => None
        case Some((x, e)) => Some((Span(Binary(op, l, x), pos, e), e))
      else None
  }

  /** The binary forms from the `k`-th on, the first that succeeds. */
  function FirstBinary(ts: seq<T.Token>, pos: nat, k: nat): (r: Option<(Span<Expr>, nat)>)
    requires pos <= |ts| && k <= |BinaryOps|
    ensures Fits(ts, pos, r)
    ensures r.Some? ==> r.value.0.item.Binary? && InlineShape(ts, r.value.0)
    decreases |ts| - pos, 1, |BinaryOps| - k + 1
  {
    if k == |BinaryOps| then None
    else
      var b := BinaryForm(ts, pos, BinaryOps[k]);
      if b.Some? then b else FirstBinary(ts, pos, k + 1)
  }

  /** `unary` (parser.rs:60-67): `!` or `-` followed by one atom. */
  function UnaryForm(ts: seq<T.Token>, pos: nat): (r: Option<(Span<Expr>, nat)>)
    requires pos <= |ts|
    ensures Fits(ts, pos, r)
    ensures r.Some? ==> r.value.0.item.Unary? && InlineShape(ts, r.value.0)
    decreases |ts| - pos, 1, 0
  {
    if pos < |ts| && (ts[pos] == T.Bang || ts[pos] == T.Minus) then
      var op := if ts[pos] == T.Bang then Not else Neg;
      match Atom(ts, pos + 1)
      case None => None
      case Some((x, e)) => Some((Span(Unary(op, x), pos, e), e))
    else None
  }

  /** `inline` (parser.rs:26-199): the binary forms, then the unary forms,
      then a bare atom. */
  function Inline(ts: seq<T.Token>, pos: nat): (r: Option<(Span<Expr>, nat)>)
    requires pos <= |ts|
    ensures Fits(ts, pos, r)
    ensures r.Some? ==> InlineShape(ts, r.value.0)
    decreases |ts| - pos, 2, 0
  {
    var b := FirstBinary(ts, pos, 0);
    if b.Some? then b
    else
      var u := UnaryForm(ts, pos);
      if u.Some? then u else Atom(ts, pos)
  }

  /** `kwlet` (parser.rs:201-215): `let`, an identifier, `=`, an inline
      expression and `;`. */
  function LetRule(ts: seq<T.Token>, pos: nat): (r: Option<(Span<Expr>, nat)>)
    requires pos <= |ts|
    ensures Fits(ts, pos, r)
    ensures r.Some? ==>
              var e := r.value.0;
              && e.item.Let? && e.end >= pos + 5
              && ts[pos] == T.Let && ts[pos + 1].Ident? && ts[pos + 2] == T.Eq && ts[e.end - 1] == T.Semi
              && e.item.name == Span(ts[pos + 1].name, pos + 1, pos + 2)
              && e.item.init.start == pos + 3 && e.item.init.end == e.end - 1
  {
    if pos + 3 <= |ts| && ts[pos] == T.Let && ts[pos + 1].Ident? && ts[pos + 2] == T.Eq then
      var i := Inline(ts, pos + 3);
      if i.Some? && i.value.1 < |ts| && ts[i.value.1] == T.Semi then
        var e := i.value.1 + 1;
        Some((Span(Let(Span(ts[pos + 1].name, pos + 1, pos + 2), i.value.0), pos, e), e))
      else None
    else None
  }

  /** `block` (parser.rs:217-227): statements between braces. */
  function BlockRule(ts: seq<T.Token>, pos: nat): (r: Option<(Span<Expr>, nat)>)
    requires pos <= |ts|
    ensures Fits(ts, pos, r)
    ensures r.Some? ==>
              && r.value.0.item.Block? && ts[pos] == T.LeftBrace && ts[r.value.1 - 1] == T.RightBrace
              && AllWithin(r.value.0.item.exprs, pos + 1, r.value.1 - 1)
    decreases |ts| - pos, 1
  {
    if pos < |ts| && ts[pos] == T.LeftBrace then
      var (xs, q) := Stmts(ts, pos + 1);
      if q < |ts| && ts[q] == T.RightBrace then Some((Span(Block(xs), pos, q + 1), q + 1)) else None
    else None
  }

  /** `kwif` (parser.rs:229-255): `if` and a block, then optionally `else`
      followed by a block, another `if`, or nothing. */
  function IfRule(ts: seq<T.Token>, pos: nat): (r: Option<(Span<Expr>, nat)>)
    requires pos <= |ts|
    ensures Fits(ts, pos, r)
    ensures r.Some? ==>
              var e := r.value.0.item;
              && e.If? && ts[pos] == T.If && e.thenBlock.item.Block? && e.thenBlock.start == pos + 1
              && (!e.elseToken ==> e.other.None? && r.value.1 == e.thenBlock.end)
              && (e.elseToken ==> e.thenBlock.end < |ts| && ts[e.thenBlock.end] == T.Else)
              && (e.other.Some? ==> e.other.value.item.Block? || e.other.value.item.If?)
    decreases |ts| - pos, 1
  {
    if pos < |ts| && ts[pos] == T.If then
      match BlockRule(ts, pos + 1)
      case None => None
      case Some((t, q)) => Some(IfTail(ts, pos, t, q))
    else None
  }

  /** The rest of `kwif` once `if` at `pos` and its block `t` ending at `q`
      have been read. */
  function IfTail(ts: seq<T.Token>, pos: nat, t: Span<Expr>, q: nat): (r: (Span<Expr>, nat))
    requires pos < q <= |ts| && t.start == pos + 1 && t.end == q && WellFormed(t) && t.item.Block?
    ensures Fits(ts, pos, Some(r))
    ensures var e := r.0.item;
            && e.If? && e.thenBlock == t
            && (!e.elseToken ==> e.other.None? && r.1 == q)
            && (e.elseToken ==> q < |ts| && ts[q] == T.Else)
            && (e.other.Some? ==> e.other.value.item.Block? || e.other.value.item.If?)
    decreases |ts| - q, 0
  {
    if q < |ts| && ts[q] == T.Else then
      var o := ElseBranch(ts, q + 1);
      if o.Some? then (Span(If(t, true, Some(o.value.0)), pos, o.value.1), o.value.1)
      else (Span(If(t, true, None), pos, q + 1), q + 1)
    else (Span(If(t, false, None), pos, q), q)
  }

  /** What may follow `else`: a block, else another `if`. */
  function ElseBranch(ts: seq<T.Token>, pos: nat): (r: Option<(Span<Expr>, nat)>)
    requires pos <= |ts|
    ensures Fits(ts, pos, r)
    ensures r.Some? ==> r.value.0.item.Block? || r.value.0.item.If?
    decreases |ts| - pos, 2
  {
    var b := BlockRule(ts, pos);
    if b.Some? then b else IfRule(ts, pos)
  }

  /** One statement: a block, a `let`, or an `if` (parser.rs:257). */
  function Stmt(ts: seq<T.Token>, pos: nat): (r: Option<(Span<Expr>, nat)>)
    requires pos <= |ts|
    ensures Fits(ts, pos, r)
    ensures r.Some? ==> IsStatementNode(r.value.0.item)
    ensures r.Some? ==> pos < |ts| && (ts[pos] == T.LeftBrace || ts[pos] == T.Let || ts[pos] == T.If)
    decreases |ts| - pos, 2
  {
    var b := BlockRule(ts, pos);
    if b.Some? then b
    else
      var l := LetRule(ts, pos);
      if l.Some? then l else IfRule(ts, pos)
  }

  /** Statements repeated for as long as one parses (parser.rs:257). */
  function Stmts(ts: seq<T.Token>, pos: nat): (r: (seq<Span<Expr>>, nat))
    requires pos <= |ts|
    ensures pos <= r.1 <= |ts|
    ensures Ordered(r.0, r.1) && AllWithin(r.0, pos, r.1)
    ensures Statements(r.0)
    decreases |ts| - pos, 3
  {
    match Stmt(ts, pos)
    case None => ([], pos)
    case Some((x, q)) =>
      var (xs, e) := Stmts(ts, q);
      OrderedCons(x, xs, pos, e);
      StatementsCons(x, xs);
      ([x] + xs, e)
  }

  /** `parser().parse(tokens)`: the statements, which must take up the whole
      input. */
  function Program(ts: seq<T.Token>): (r: Option<seq<Span<Expr>>>)
    ensures r.Some? ==> Ordered(r.value, |ts|)
    ensures r.Some? ==> Statements(r.value)
  {
    var (xs, q) := Stmts(ts, 0);
    if q == |ts| then Some(xs) else None
  }
}

=== FILE: parser_facts.dfy ===
/** Properties of the `vea` parser model: which inline form wins, what
    cannot be parsed, and worked examples. */
module ParserFacts {
  import opened Wrappers
  import opened Spans
  import opened Ast
  import opened Parser
  import T = Tokens

  /** Where each binary operator sits in the order of alternatives. */
  function OpIndex(op: BinaryOp): (i: nat)
    ensures i < |BinaryOps| && BinaryOps[i] == op
  {
    match op
    case Eq => 0
    case Ne => 1
    case Gt => 2
    case Ge => 3
    case Lt => 4
    case Le => 5
    case Mul => 6
    case Div => 7
    case Add => 8
    case Sub => 9
  }

  /** Each binary operator is spelled by its own token. */
  lemma {:induction false} BinaryOpsDistinct()
    ensures forall i, j | 0 <= i < j < |BinaryOps| :: OpToken(BinaryOps[i]) != OpToken(BinaryOps[j])
  {
  }

  /** The binary forms from `k` on yield the first one that succeeds. */
  lemma {:induction false} FirstBinaryFinds(ts: seq<T.Token>, pos: nat, k: nat, i: nat)
    requires pos <= |ts| && k <= i < |BinaryOps|
    requires BinaryForm(ts, pos, BinaryOps[i]).Some?
    requires forall j | k <= j < i :: BinaryForm(ts, pos, BinaryOps[j]).None?
    ensures FirstBinary(ts, pos, k) == BinaryForm(ts, pos, BinaryOps[i])
    decreases i - k
  {
    if k < i {
      assert BinaryForm(ts, pos, BinaryOps[k]).None?;
      FirstBinaryFinds(ts, pos, k + 1, i);
    }
  }

  /** When no binary form from `k` on succeeds, none is found. */
  lemma {:induction false} FirstBinaryNone(ts: seq<T.Token>, pos: nat, k: nat)
    requires pos <= |ts| && k <= |BinaryOps|
    requires forall j | k <= j < |BinaryOps| :: BinaryForm(ts, pos, BinaryOps[j]).None?
    ensures FirstBinary(ts, pos, k).None?
    decreases |BinaryOps| - k
  {
    if k < |BinaryOps| {
      FirstBinaryNone(ts, pos, k + 1);
    }
  }

  /** An atom followed by an operator token and another atom is parsed as
      that binary form, whichever operator it is. */
  lemma {:induction false} InlinePrefersBinary(ts: seq<T.Token>, pos: nat, op: BinaryOp)
    requires pos <= |ts| && Atom(ts, pos).Some?
    requires var q := Atom(ts, pos).value.1; q < |ts| && ts[q] == OpToken(op) && Atom(ts, q + 1).Some?
    ensures BinaryForm(ts, pos, op).Some? && Inline(ts, pos) == BinaryForm(ts, pos, op)
  {
    BinaryOpsDistinct();
    FirstBinaryFinds(ts, pos, 0, OpIndex(op));
  }

  /** An atom not followed by an operator token and a second atom is parsed
      as that atom alone. */
  lemma {:induction false} InlineFallsBackToAtom(ts: seq<T.Token>, pos: nat)
    requires pos <= |ts| && Atom(ts, pos).Some?
    requires var q := Atom(ts, pos).value.1;
             forall op :: q < |ts| && ts[q] == OpToken(op) ==> Atom(ts, q + 1).None?
    ensures Inline(ts, pos) == Atom(ts, pos)
  {
    forall j | 0 <= j < |BinaryOps|
      ensures BinaryForm(ts, pos, BinaryOps[j]).None?
    {
      BinaryFormNeedsSecondAtom(ts, pos, BinaryOps[j]);
    }
    FirstBinaryNone(ts, pos, 0);
  }

  lemma {:induction false} BinaryFormNeedsSecondAtom(ts: seq<T.Token>, pos: nat, op: BinaryOp)
    requires pos <= |ts| && Atom(ts, pos).Some?
    requires var q := Atom(ts, pos).value.1; q < |ts| && ts[q] == OpToken(op) ==> Atom(ts, q + 1).None?
    ensures BinaryForm(ts, pos, op).None?
  {
  }

  /** `!` or `-` in front is parsed as a unary form. */
  lemma {:induction false} InlineUnary(ts: seq<T.Token>, pos: nat)
    requires pos < |ts| && (ts[pos] == T.Bang || ts[pos] == T.Minus)
    ensures Inline(ts, pos) == UnaryForm(ts, pos)
  {
    FirstBinaryNone(ts, pos, 0);
  }

  /** An inline expression parses exactly when an atom or a unary form does:
      every binary form starts with an atom. */
  lemma {:induction false} InlineSucceeds(ts: seq<T.Token>, pos: nat)
    requires pos <= |ts|
    ensures Inline(ts, pos).Some? <==> Atom(ts, pos).Some? || UnaryForm(ts, pos).Some?
  {
    if Atom(ts, pos).None? {
      FirstBinaryNone(ts, pos, 0);
    }
  }

  /** An equality node is always spelled with the single `=` token, never
      with `==`. */
  lemma {:induction false} EqualityIsSingleEquals(ts: seq<T.Token>, pos: nat)
    requires pos <= |ts| && Inline(ts, pos).Some?
    requires Inline(ts, pos).value.0.item.Binary? && Inline(ts, pos).value.0.item.bop == Eq
    ensures var l := Inline(ts, pos).value.0.item.lhs;
            l.end < |ts| && ts[l.end] == T.Eq && ts[l.end] != T.EqEq
  {
  }

  function Num(n: T.i64): T.Token {
    T.Number(n)
  }

  /** `1 + 2 + 3` is not one inline expression: the inline rule stops after
      `1 + 2`. */
  lemma {:induction false} SumDoesNotChain(ts: seq<T.Token>)
    requires |ts| == 5 && ts[0] == Num(1) && ts[1] == T.Plus && ts[2] == Num(2)
    requires ts[3] == T.Plus && ts[4] == Num(3)
    ensures Inline(ts, 0)
            == Some((Span(Binary(Add, Span(Lit(Integer(1)), 0, 1), Span(Lit(Integer(2)), 2, 3)), 0, 3), 3))
  {
    assert Atom(ts, 0) == Some((Span(Lit(Integer(1)), 0, 1), 1));
    assert Atom(ts, 2) == Some((Span(Lit(Integer(2)), 2, 3), 3));
    InlinePrefersBinary(ts, 0, Add);
  }

  /** So `let x = 1 + 2 + 3;` is rejected. */
  lemma {:induction false} ChainedLetRejected(ts: seq<T.Token>)
    requires |ts| == 9 && ts[0] == T.Let && ts[1] == T.Ident("x") && ts[2] == T.Eq
    requires ts[3] == Num(1) && ts[4] == T.Plus && ts[5] == Num(2) && ts[6] == T.Plus
    requires ts[7] == Num(3) && ts[8] == T.Semi
    ensures LetRule(ts, 0).None?
  {
    assert Atom(ts, 3) == Some((Span(Lit(Integer(1)), 3, 4), 4));
    assert Atom(ts, 5) == Some((Span(Lit(Integer(2)), 5, 6), 6));
    InlinePrefersBinary(ts, 3, Add);
    LetNeedsSemi(ts, 0);
  }

  /** A `let` whose inline expression is not followed by `;` is rejected. */
  lemma {:induction false} LetNeedsSemi(ts: seq<T.Token>, pos: nat)
    requires pos + 3 <= |ts| && Inline(ts, pos + 3).Some?
    requires var q := Inline(ts, pos + 3).value.1; q < |ts| ==> ts[q] != T.Semi
    ensures LetRule(ts, pos).None?
  {
  }

  /** `1 == 2` is not an equality: the inline rule stops after `1`. */
  lemma {:induction false} DoubleEqualsIsNotEquality(ts: seq<T.Token>)
    requires ts == [Num(1), T.EqEq, Num(2)]
    ensures Inline(ts, 0) == Some((Span(Lit(Integer(1)), 0, 1), 1))
  {
    InlineFallsBackToAtom(ts, 0);
  }

  /** A non-empty program starts with `{`, `let` or `if`. */
  lemma {:induction false} ProgramStartsWithStatement(ts: seq<T.Token>)
    requires |ts| > 0 && Program(ts).Some?
    ensures ts[0] == T.LeftBrace || ts[0] == T.Let || ts[0] == T.If
  {
  }

  /** The repetition stops where no statement parses. */
  lemma {:induction false} StmtsStop(ts: seq<T.Token>, pos: nat)
    requires pos <= |ts| && Stmt(ts, pos).None?
    ensures Stmts(ts, pos) == ([], pos)
  {
  }

  /** Otherwise it takes the statement and carries on after it. */
  lemma {:induction false} StmtsStep(ts: seq<T.Token>, pos: nat)
    requires pos <= |ts| && Stmt(ts, pos).Some?
    ensures var (x, q) := Stmt(ts, pos).value;
            Stmts(ts, pos) == ([x] + Stmts(ts, q).0, Stmts(ts, q).1)
  {
  }

  /** The program is the statements when they take up the whole input, and
      there is none when they stop short of its end. */
  lemma {:induction false} ProgramIsStmts(ts: seq<T.Token>)
    ensures Stmts(ts, 0).1 == |ts| ==> Program(ts) == Some(Stmts(ts, 0).0)
    ensures Stmts(ts, 0).1 < |ts| ==> Program(ts).None?
  {
  }

  /** A `let` statement is tried after the block rule, which fails on `let`. */
  lemma {:induction false} StmtIsLet(ts: seq<T.Token>, pos: nat)
    requires pos <= |ts| && LetRule(ts, pos).Some?
    ensures Stmt(ts, pos) == LetRule(ts, pos)
  {
  }

  /** An `if` statement is tried after the block and `let` rules. */
  lemma {:induction false} StmtIsIf(ts: seq<T.Token>, pos: nat)
    requires pos <= |ts| && IfRule(ts, pos).Some?
    ensures Stmt(ts, pos) == IfRule(ts, pos)
  {
  }

  /** A program whose first statement is followed by a token that starts no
      statement is rejected. */
  lemma {:induction false} FirstStatementThenJunk(ts: seq<T.Token>)
    requires Stmt(ts, 0).Some? && Stmt(ts, 0).value.1 < |ts|
    requires Stmt(ts, Stmt(ts, 0).value.1).None?
    ensures Program(ts).None?
  {
    StmtsStep(ts, 0);
    StmtsStop(ts, Stmt(ts, 0).value.1);
    ProgramIsStmts(ts);
  }

  /** So a `print` statement is never accepted: the tokens of
      `let x = 0; print(x);` parse up to the `print` and then fail. */
  lemma {:induction false} PrintStatementRejected(ts: seq<T.Token>)
    requires |ts| == 10 && ts[0] == T.Let && ts[1] == T.Ident("x") && ts[2] == T.Eq
    requires ts[3] == Num(0) && ts[4] == T.Semi && ts[5] == T.Print && ts[6] == T.LeftParen
    requires ts[7] == T.Ident("x") && ts[8] == T.RightParen && ts[9] == T.Semi
    ensures Program(ts).None?
  {
    SimpleLet(ts, 0);
    FirstStatementThenJunk(ts);
  }

  /** `let`, a name, `=`, a one-token atom and `;` make a statement of five
      tokens. */
  lemma {:induction false} SimpleLet(ts: seq<T.Token>, pos: nat)
    requires pos + 5 <= |ts| && ts[pos] == T.Let && ts[pos + 1].Ident? && ts[pos + 2] == T.Eq
    requires Atom(ts, pos + 3).Some? && Atom(ts, pos + 3).value.1 == pos + 4 && ts[pos + 4] == T.Semi
    ensures Stmt(ts, pos).Some? && Stmt(ts, pos).value.1 == pos + 5
  {
    InlineFallsBackToAtom(ts, pos + 3);
    StmtIsLet(ts, pos);
  }

  /** A program that is one statement. */
  lemma {:induction false} SingleStatement(ts: seq<T.Token>)
    requires Stmt(ts, 0).Some? && Stmt(ts, 0).value.1 == |ts|
    ensures Program(ts) == Some([Stmt(ts, 0).value.0])
  {
    StmtsStep(ts, 0);
    StmtsStop(ts, |ts|);
    ProgramIsStmts(ts);
    assert [Stmt(ts, 0).value.0] + [] == [Stmt(ts, 0).value.0];
  }

  /** `if {} else` is accepted: the `else` is recorded and nothing follows
      it. */
  lemma {:induction false} DanglingElseAccepted(ts: seq<T.Token>)
    requires |ts| == 4 && ts[0] == T.If && ts[1] == T.LeftBrace && ts[2] == T.RightBrace && ts[3] == T.Else
    ensures Program(ts) == Some([Span(If(Span(Block([]), 1, 3), true, None), 0, 4)])
  {
    StmtsStop(ts, 2);
    assert IfRule(ts, 0) == Some((Span(If(Span(Block([]), 1, 3), true, None), 0, 4), 4));
    StmtIsIf(ts, 0);
    SingleStatement(ts);
  }

  // ---- Each rule builds its node from what its sub-rules parse ----

  /** Which node each atom token becomes (parser.rs:27-57): an identifier an
      access carrying its name, `true`/`false` the boolean literals, a number
      or string token the literal carrying its value, and `(` the group of
      the inline expression up to the matching `)`. */
  lemma {:induction false} AtomMaps(ts: seq<T.Token>, pos: nat)
    requires pos < |ts|
    ensures var r := Atom(ts, pos);
            && (ts[pos].Ident? ==> r == Some((Span(Access(Span(ts[pos].name, pos, pos + 1)), pos, pos + 1), pos + 1)))
            && (ts[pos].True? ==> r == Some((Span(Lit(Bool(true)), pos, pos + 1), pos + 1)))
            && (ts[pos].False? ==> r == Some((Span(Lit(Bool(false)), pos, pos + 1), pos + 1)))
            && (ts[pos].Number? ==> r == Some((Span(Lit(Integer(ts[pos].value)), pos, pos + 1), pos + 1)))
            && (ts[pos].String? ==> r == Some((Span(Lit(Str(ts[pos].text)), pos, pos + 1), pos + 1)))
            && (!IsAtomToken(ts[pos]) ==> r.None?)
    ensures var r := Atom(ts, pos); var i := Inline(ts, pos + 1);
            ts[pos].LeftParen? ==>
              && (r.Some? <==> i.Some? && i.value.1 < |ts| && ts[i.value.1] == T.RightParen)
              && (r.Some? ==> r.value.0.item == Group(i.value.0) && r.value.1 == i.value.1 + 1)
  {
  }

  /** A binary form succeeds exactly when an atom, the operator's token and
      a second atom follow one another ... */
  lemma {:induction false} BinaryFormSucceeds(ts: seq<T.Token>, pos: nat, op: BinaryOp)
    requires pos <= |ts|
    ensures var r := BinaryForm(ts, pos, op); var a := Atom(ts, pos);
            r.Some? <==> a.Some? && a.value.1 < |ts| && ts[a.value.1] == OpToken(op) && Atom(ts, a.value.1 + 1).Some?
  {
  }

  /** ... its left operand is the atom at its start ... */
  lemma {:induction false} BinaryFormLeft(ts: seq<T.Token>, pos: nat, op: BinaryOp)
    requires pos <= |ts|
    ensures var r := BinaryForm(ts, pos, op);
            r.Some? ==> var e := r.value.0.item; Atom(ts, pos) == Some((e.lhs, e.lhs.end)) && e.lhs.end < |ts|
  {
    if BinaryForm(ts, pos, op).Some? {
      BinaryFormSucceeds(ts, pos, op);
      var (l, q) := Atom(ts, pos).value;
      var (x, e) := Atom(ts, q + 1).value;
      BinaryFormBuilt(ts, pos, op, l, q, x, e);
    }
  }

  /** ... and its right operand the atom after the operator token. */
  lemma {:induction false} BinaryFormRight(ts: seq<T.Token>, pos: nat, op: BinaryOp)
    requires pos <= |ts|
    ensures var r := BinaryForm(ts, pos, op);
            r.Some? ==> var e := r.value.0.item; e.lhs.end < |ts| && Atom(ts, e.lhs.end + 1) == Some((e.rhs, r.value.1))
  {
    if BinaryForm(ts, pos, op).Some? {
      BinaryFormSucceeds(ts, pos, op);
      var (l, q) := Atom(ts, pos).value;
      var (x, e) := Atom(ts, q + 1).value;
      BinaryFormBuilt(ts, pos, op, l, q, x, e);
    }
  }

  /** The node a binary form builds from its two atoms. */
  lemma {:induction false} BinaryFormBuilt(ts: seq<T.Token>, pos: nat, op: BinaryOp, l: Span<Expr>, q: nat, x: Span<Expr>, e: nat)
    requires pos <= |ts| && q < |ts| && ts[q] == OpToken(op)
    requires Atom(ts, pos) == Some((l, q)) && Atom(ts, q + 1) == Some((x, e))
    ensures l.end == q
    ensures BinaryForm(ts, pos, op) == Some((Span(Binary(op, l, x), pos, e), e))
  {
  }

  /** A unary form succeeds exactly when `!` or `-` is followed by an atom,
      and its operand is that atom. */
  lemma {:induction false} UnaryFormParts(ts: seq<T.Token>, pos: nat)
    requires pos <= |ts|
    ensures var r := UnaryForm(ts, pos);
            r.Some? <==> pos < |ts| && (ts[pos] == T.Bang || ts[pos] == T.Minus) && Atom(ts, pos + 1).Some?
    ensures var r := UnaryForm(ts, pos);
            r.Some? ==>
              && r.value.0.item.uop == (if ts[pos] == T.Bang then Not else Neg)
              && Atom(ts, pos + 1) == Some((r.value.0.item.operand, r.value.1))
  {
  }

  /** A `let` succeeds exactly when `let`, an identifier and `=` are followed
      by an inline expression and `;`, and its initializer is that
      expression. */
  lemma {:induction false} LetRuleParts(ts: seq<T.Token>, pos: nat)
    requires pos <= |ts|
    ensures var r := LetRule(ts, pos);
            r.Some? <==>
              && pos + 3 <= |ts| && ts[pos] == T.Let && ts[pos + 1].Ident? && ts[pos + 2] == T.Eq
              && var i := Inline(ts, pos + 3); i.Some? && i.value.1 < |ts| && ts[i.value.1] == T.Semi
    ensures var r := LetRule(ts, pos);
            r.Some? ==> Inline(ts, pos + 3) == Some((r.value.0.item.init, r.value.1 - 1))
  {
  }

  /** A block succeeds exactly when `{` is followed by the repeated
      statements and then `}`, and its body is those statements, each a
      block, a `let` or an `if`. */
  lemma {:induction false} BlockRuleParts(ts: seq<T.Token>, pos: nat)
    requires pos <= |ts|
    ensures var r := BlockRule(ts, pos);
            r.Some? <==> pos < |ts| && ts[pos] == T.LeftBrace && Stmts(ts, pos + 1).1 < |ts| && ts[Stmts(ts, pos + 1).1] == T.RightBrace
    ensures var r := BlockRule(ts, pos);
            r.Some? ==>
              && Stmts(ts, pos + 1) == (r.value.0.item.exprs, r.value.1 - 1)
              && forall i :: 0 <= i < |r.value.0.item.exprs| ==> IsStatementNode(r.value.0.item.exprs[i].item)
  {
  }

  /** An `if` succeeds exactly when `if` is followed by a block; that block
      is its then-branch, `else` is recorded exactly when the next token is
      `else`, and its else-branch is what `ElseBranch` parses after it. */
  lemma {:induction false} IfRuleParts(ts: seq<T.Token>, pos: nat)
    requires pos <= |ts|
    ensures var r := IfRule(ts, pos);
            r.Some? <==> pos < |ts| && ts[pos] == T.If && BlockRule(ts, pos + 1).Some?
    ensures var r := IfRule(ts, pos);
            r.Some? ==>
              var e := r.value.0.item;
              && BlockRule(ts, pos + 1) == Some((e.thenBlock, e.thenBlock.end))
              && (e.elseToken <==> e.thenBlock.end < |ts| && ts[e.thenBlock.end] == T.Else)
              && (e.other.Some? ==> e.thenBlock.end < |ts| && ElseBranch(ts, e.thenBlock.end + 1) == Some((e.other.value, r.value.1)))
              && (e.elseToken && e.other.None? ==>
                    e.thenBlock.end < |ts| && ElseBranch(ts, e.thenBlock.end + 1).None? && r.value.1 == e.thenBlock.end + 1)
  {
    if pos < |ts| && ts[pos] == T.If {
      var b := BlockRule(ts, pos + 1);
      if b.Some? {
        var (t, q) := b.value;
        assert IfRule(ts, pos) == Some(IfTail(ts, pos, t, q));
      }
    }
  }
}

=== FILE: pipeline.dfy ===
/** The driver in vea/src/lib.rs: the lexer's tokens, stripped of their
    spans, go to the parser; the parser's nodes go to the interpreter; and
    token-index spans in diagnostics are translated back to source offsets.
    The interpreter itself is a parameter, and a diagnostic is recorded by
    kind and range only (its rendering is not modelled). */
module Pipeline {
  import opened Wrappers
  import opened Spans
  import opened Tokens
  import opened Lexer
  import LexerFacts
  import Ast
  import Parser

  /** The token kinds handed to the parser (lib.rs:81). */
  function Kinds(b: seq<Span<Token>>): (a: seq<Token>)
    ensures |a| == |b| && forall i :: 0 <= i < |b| ==> a[i] == b[i].item
  {
    if b == [] then [] else [b[0].item] + Kinds(b[1..])
  }

  /** The parser sees only the token kinds: token lists that differ only in
      their source offsets parse alike. */
  lemma {:induction false} ParseSeesOnlyKinds(b1: seq<Span<Token>>, b2: seq<Span<Token>>)
    requires |b1| == |b2| && forall i :: 0 <= i < |b1| ==> b1[i].item == b2[i].item
    ensures Parser.Program(Kinds(b1)) == Parser.Program(Kinds(b2))
  {
    assert Kinds(b1) == Kinds(b2);
  }

  /** The source range of the token-index span `[s, e)`: from the start of
      token `s` to the end of token `e - 1` (lib.rs:90, 96, 118, 122). The
      indexing panics unless both tokens exist, which is `None` here. */
  function TokenSpanToRange(b: seq<Span<Token>>, s: nat, e: nat): (r: Option<(nat, nat)>)
    ensures r.Some? <==> s < |b| && 1 <= e <= |b|
    ensures r.Some? ==> r.value.0 == b[s].start && r.value.1 == b[e - 1].end
  {
    if s < |b| && 1 <= e <= |b| then Some((b[s].start, b[e - 1].end)) else None
  }

  /** Over ordered tokens, a non-empty span translates to a range that is
      not reversed, ends inside the source, and covers every token of the
      span. */
  lemma {:induction false} RangeCoversTokens(b: seq<Span<Token>>, srcLen: nat, s: nat, e: nat)
    requires Ordered(b, srcLen) && s < e <= |b|
    ensures TokenSpanToRange(b, s, e).Some?
    ensures var (lo, hi) := TokenSpanToRange(b, s, e).value;
            && lo <= hi <= srcLen
            && forall i :: s <= i < e ==> lo <= b[i].start && b[i].end <= hi
  {
    var (lo, hi) := TokenSpanToRange(b, s, e).value;
    forall i | s <= i < e
      ensures lo <= b[i].start && b[i].end <= hi
    {
      if s < i {
        assert b[s].end <= b[i].start;
      }
      if i < e - 1 {
        assert b[i].end <= b[e - 1].start;
      }
    }
  }

  /** An empty span after the first token translates as written to an empty
      or reversed range: the start of token `k` is not before the end of
      token `k - 1`. */
  lemma {:induction false} EmptySpanReversed(b: seq<Span<Token>>, srcLen: nat, k: nat)
    requires Ordered(b, srcLen) && 1 <= k < |b|
    ensures TokenSpanToRange(b, k, k).Some?
    ensures TokenSpanToRange(b, k, k).value.1 <= TokenSpanToRange(b, k, k).value.0
  {
    assert b[k - 1].end <= b[k].start;
  }

  /** A parse error found at the end of the input has the empty span
      `[|b|, |b|)`; translating it as written indexes past the last token. */
  lemma {:induction false} EndOfInputErrorPanics(b: seq<Span<Token>>)
    ensures TokenSpanToRange(b, |b|, |b|).None?
  {
  }

  /** The translation a diagnostic evidently wants: the same range wherever
      the translation as written is defined on a non-empty span, a point at
      the start of token `s` for an empty span, and the end of the source
      for a position past the last token. */
  function DiagnosticRange(b: seq<Span<Token>>, srcLen: nat, s: nat, e: nat): (r: (nat, nat))
    ensures s < e ==> TokenSpanToRange(b, s, e).Some? ==> r == TokenSpanToRange(b, s, e).value
    ensures s < |b| ==> r.0 == b[s].start
    ensures |b| <= s ==> r == (srcLen, srcLen)
  {
    if |b| <= s then (srcLen, srcLen)
    else if e <= s then (b[s].start, b[s].start)
    else if e <= |b| then (b[s].start, b[e - 1].end)
    else (b[s].start, b[|b| - 1].end)
  }

  /** Over ordered tokens in a source of length `srcLen`, every diagnostic
      range is a well-formed range inside the source. */
  lemma {:induction false} DiagnosticRangeInSource(b: seq<Span<Token>>, srcLen: nat, s: nat, e: nat)
    requires Ordered(b, srcLen)
    ensures var r := DiagnosticRange(b, srcLen, s, e); r.0 <= r.1 <= srcLen
  {
    if s < |b| && s < e {
      var last := if e <= |b| then e - 1 else |b| - 1;
      if s < last {
        assert b[s].end <= b[last].start;
      }
    }
  }

  /** What the interpreter reports: its output, or a message and the
      token-index span of the node that failed. */
  datatype ExecResult = Ok(stdout: string) | Err(message: string, span: (nat, nat))

  /** One entry of the transcript `main` builds. */
  datatype Message =
    | LexError(at: nat)
    | SyntaxError
    | RuntimeError(message: string, start: nat, end: nat)
    | Output(text: string)

  /** `interp` (lib.rs:110-135) as written: `None` where the translation
      panics. */
  function InterpAsWritten(b: seq<Span<Token>>, x: ExecResult): (r: Option<Message>)
    ensures x.Ok? ==> r == Some(Output(x.stdout))
    ensures x.Err? ==> (r.Some? <==> x.span.0 < |b| && 1 <= x.span.1 <= |b|)
    ensures x.Err? && r.Some? ==> r.value == RuntimeError(x.message, b[x.span.0].start, b[x.span.1 - 1].end)
  {
    match x
    case Ok(out) => Some(Output(out))
    case Err(m, (s, e)) =>
      match TokenSpanToRange(b, s, e)
      case Some((lo, hi)) => Some(RuntimeError(m, lo, hi))
      case None => None
  }

  /** `interp` with the corrected translation. */
  function Interp(b: seq<Span<Token>>, srcLen: nat, x: ExecResult): (m: Message)
    ensures InterpAsWritten(b, x).Some? && (x.Ok? || x.span.0 < x.span.1) ==> m == InterpAsWritten(b, x).value
  {
    match x
    case Ok(out) => Output(out)
    case Err(msg, (s, e)) =>
      var (lo, hi) := DiagnosticRange(b, srcLen, s, e);
      RuntimeError(msg, lo, hi)
  }

  /** A runtime error reported at a top-level statement of the program
      translates as written without a panic, to a range inside the source,
      and the corrected translation gives the same message. */
  lemma {:induction false} StatementErrorTranslates(src: string, prog: seq<Span<Ast.Expr>>, i: nat, m: string)
    requires Lex(src).tokens.Some?
    requires Parser.Program(Kinds(Lex(src).tokens.value)) == Some(prog)
    requires i < |prog|
    ensures var b := Lex(src).tokens.value;
            var x := Err(m, (prog[i].start, prog[i].end));
            && InterpAsWritten(b, x).Some?
            && InterpAsWritten(b, x).value == Interp(b, |src|, x)
            && Interp(b, |src|, x).start <= Interp(b, |src|, x).end <= |src|
  {
    var b := Lex(src).tokens.value;
    assert |Kinds(b)| == |b|;
    RangeCoversTokens(b, |src|, prog[i].start, prog[i].end);
  }

  /** How far `main` got (lib.rs:137-159): the lexer's output; the parser's
      answer if it ran; the interpreter's message if it ran. */
  datatype Run = Run(lexed: LexOutput, parsed: Option<Option<seq<Span<Ast.Expr>>>>, executed: Option<Message>)

  /** The stages of `main`, each run only when the one before produced
      output. */
  function RunSource(src: string, exec: seq<Span<Ast.Expr>> -> ExecResult): (r: Run)
    ensures r.lexed == Lex(src)
    ensures r.parsed.Some? <==> Lex(src).tokens.Some?
    ensures r.parsed.Some? ==> r.parsed.value == Parser.Program(Kinds(Lex(src).tokens.value))
    ensures r.executed.Some? <==> r.parsed.Some? && r.parsed.value.Some?
    ensures r.executed.Some? ==> r.executed.value == Interp(Lex(src).tokens.value, |src|, exec(r.parsed.value.value))
  {
    var lexed := Lex(src);
    match lexed.tokens
    case None => Run(lexed, None, None)
    case Some(b) =>
      var p := Parser.Program(Kinds(b));
      match p
      case None => Run(lexed, Some(p), None)
      case Some(prog) => Run(lexed, Some(p), Some(Interp(b, |src|, exec(prog))))
  }

  /** The diagnostics of the lexer, in order (lib.rs:56-71). */
  function LexMessages(errors: seq<nat>): (ms: seq<Message>)
    ensures |ms| == |errors| && forall i :: 0 <= i < |errors| ==> ms[i] == LexError(errors[i])
  {
    if errors == [] then [] else [LexError(errors[0])] + LexMessages(errors[1..])
  }

  /** Everything a run writes, in the order the stages write it. */
  function Transcript(r: Run): (ms: seq<Message>)
    ensures |r.lexed.errors| <= |ms| <= |r.lexed.errors| + 2
    ensures ms[..|r.lexed.errors|] == LexMessages(r.lexed.errors)
    ensures forall i :: |r.lexed.errors| <= i < |ms| ==> ms[i] == SyntaxError || Some(ms[i]) == r.executed
    ensures r.parsed == Some(None) ==> |ms| > |r.lexed.errors| && ms[|r.lexed.errors|] == SyntaxError
    ensures r.executed.Some? ==> |ms| > |r.lexed.errors| && ms[|ms| - 1] == r.executed.value
  {
    LexMessages(r.lexed.errors)
    + (if r.parsed == Some(None) then [SyntaxError] else [])
    + (if r.executed.Some? then [r.executed.value] else [])
  }

  /** The report loop of `lex`: one diagnostic per lexer error. */
  method ReportLexErrors(errors: seq<nat>) returns (out: seq<Message>)
    ensures out == LexMessages(errors)
  {
    out := [];
    for i := 0 to |errors|
      invariant out == LexMessages(errors[..i])
    {
      LexMessagesAppend(errors[..i], errors[i]);
      assert errors[..i + 1] == errors[..i] + [errors[i]];
      out := out + [LexError(errors[i])];
    }
    assert errors[..|errors|] == errors;
  }

  lemma {:induction false} LexMessagesAppend(errors: seq<nat>, x: nat)
    ensures LexMessages(errors + [x]) == LexMessages(errors) + [LexError(x)]
  {
    var ms := LexMessages(errors + [x]);
    assert |ms| == |errors| + 1;
  }

  /** `main`: append each stage's output to the transcript, and run the next
      stage only when this one produced output. */
  method RunAll(src: string, exec: seq<Span<Ast.Expr>> -> ExecResult) returns (stdo: seq<Message>)
    ensures stdo == Transcript(RunSource(src, exec))
  {
    ghost var r := RunSource(src, exec);
    var oe := Lex(src);
    stdo := ReportLexErrors(oe.errors);
    if oe.tokens.Some? {
      var a := oe.tokens.value;
      var p := Parser.Program(Kinds(a));
      if p.None? {
        stdo := stdo + [SyntaxError];
        assert Transcript(r) == stdo + [];
      } else {
        var m := Interp(a, |src|, exec(p.value));
        stdo := stdo + [m];
        assert Transcript(r) == stdo;
      }
    } else {
      assert Transcript(r) == stdo + [] + [];
    }
  }

  /** A run that stops at the lexer writes only lexer diagnostics, and at
      least one of them. */
  lemma {:induction false} LexFailureStopsEarly(src: string, exec: seq<Span<Ast.Expr>> -> ExecResult)
    requires Lex(src).tokens.None?
    ensures Transcript(RunSource(src, exec)) == LexMessages(Lex(src).errors)
    ensures |Transcript(RunSource(src, exec))| >= 1
  {
    LexerFacts.FailureReported(src, 0);
  }
}

=== FILE: resolution.dfy ===
/** The scope resolver of the TypeScript port (js/src/resolver.ts), as
    functions on its state: a stack of scopes mapping names to "defined yet",
    the kinds of the enclosing function and class, and the log of what it
    hands to the interpreter and to the error reporter. */
module Resolution {
  import W = Wrappers

  datatype FnKind = None | Fn | Initializer | Method
  datatype ClassKind = None | Class | Subclass

  /** A variable reference: `id` stands for the identity of the expression
      object the interpreter is told about. */
  datatype Expr = Variable(id: nat, name: string)

  /** A function or method declaration: its name, its parameters and its
      body. Tokens are reduced to their lexemes. */
  datatype FnDecl = FnDecl(name: string, params: seq<string>, body: seq<Stmt>)

  datatype Stmt =
    | BlockStmt(statements: seq<Stmt>)
    | ClassStmt(name: string, superclass: W.Option<Expr>, methods: seq<FnDecl>)
    | ExpressionStmt(expression: Expr)

  /** What leaves the resolver: `interpreter.resolve(expr, depth)` or
      `Everest.error_with(token, message)`. */
  datatype Entry = Resolved(expr: nat, depth: nat) | Reported(lexeme: string, message: string)

  const AlreadyExists := "variable already exists here"
  const InheritsItself := "class cannot inherit itself"

  datatype State = State(scopes: seq<map<string, bool>>, fn: FnKind, cls: ClassKind, log: seq<Entry>)

  function BeginScope(st: State): State {
    st.(scopes := st.scopes + [map[]])
  }

  /** `pop` on an empty array leaves it empty. */
  function EndScope(st: State): State {
    if st.scopes == [] then st else st.(scopes := st.scopes[..|st.scopes| - 1])
  }

  function Declare(st: State, name: string): State {
    if st.scopes == [] then st
    else
      var top := st.scopes[|st.scopes| - 1];
      var log := if name in top then st.log + [Reported(name, AlreadyExists)] else st.log;
      st.(scopes := st.scopes[|st.scopes| - 1 := top[name := false]], log := log)
  }

  function Define(st: State, name: string): State {
    if st.scopes == [] then st
    else st.(scopes := st.scopes[|st.scopes| - 1 := st.scopes[|st.scopes| - 1][name := true]])
  }

  /** The innermost scope that holds `name`, if any. */
  function Innermost(scopes: seq<map<string, bool>>, name: string): (r: W.Option<nat>)
    ensures r.Some? ==> r.value < |scopes| && name in scopes[r.value]
    ensures r.Some? ==> forall j :: r.value < j < |scopes| ==> name !in scopes[j]
    ensures r.None? ==> forall j :: 0 <= j < |scopes| ==> name !in scopes[j]
  {
    if scopes == [] then W.None
    else if name in scopes[|scopes| - 1] then W.Some(|scopes| - 1)
    else Innermost(scopes[..|scopes| - 1], name)
  }

  function ResolveLocal(st: State, id: nat, name: string): State {
    match Innermost(st.scopes, name)
    case Some(i) => st.(log := st.log + [Resolved(id, |st.scopes| - 1 - i)])
    case None => st
  }

  function ResolveExpr(st: State, e: Expr): State {
    ResolveLocal(st, e.id, e.name)
  }

  /** Declare and define each parameter in turn. */
  function DeclareParams(st: State, params: seq<string>): State {
    if params == [] then st
    else
      var p := params[|params| - 1];
      Define(Declare(DeclareParams(st, params[..|params| - 1]), p), p)
  }

  /** `resolve_fn` as written: the parameter scope is popped before the body
      is resolved. */
  function ResolveFnAsWritten(st: State, f: FnDecl, kind: FnKind): (r: State)
    ensures Keeps(st, r)
  {
    var entry := BeginScope(st.(fn := kind));
    var params := DeclareParams(entry, f.params);
    ParamsKeep(entry, f.params);
    Bracket(st.(fn := kind), params);
    var inner := EndScope(params);
    StmtsKeeps(inner, f.body);
    ResolveStmts(inner, f.body).(fn := st.fn)
  }

  /** `resolve_fn` with the parameter scope kept open around the body. */
  function ResolveFn(st: State, f: FnDecl, kind: FnKind): State
    decreases f, 0
  {
    var params := DeclareParams(BeginScope(st.(fn := kind)), f.params);
    EndScope(ResolveStmts(params, f.body)).(fn := st.fn)
  }

  function MethodKind(m: FnDecl): FnKind {
    if m.name == "init" then FnKind.Initializer else FnKind.Method
  }

  function ResolveMethods(st: State, methods: seq<FnDecl>): State
    decreases methods, 0
  {
    if methods == [] then st
    else
      var m := methods[|methods| - 1];
      ResolveFn(ResolveMethods(st, methods[..|methods| - 1]), m, MethodKind(m))
  }

  /** The class name declared and defined, the superclass checked and
      resolved, and the `super` scope opened when there is a superclass. */
  function ClassHead(st: State, name: string, superclass: W.Option<Expr>): State {
    var declared := Define(Declare(st.(cls := ClassKind.Class), name), name);
    var checked :=
      if superclass.Some? && superclass.value.name == name
      then declared.(log := declared.log + [Reported(superclass.value.name, InheritsItself)])
      else declared;
    if superclass.Some?
    then Define(BeginScope(ResolveExpr(checked.(cls := ClassKind.Subclass), superclass.value)), "super")
    else checked
  }

  /** The methods, resolved inside the scope that binds `this`. */
  function ClassBody(st: State, methods: seq<FnDecl>): State
    decreases methods, 1
  {
    EndScope(ResolveMethods(Define(BeginScope(st), "this"), methods))
  }

  function ResolveClass(st: State, name: string, superclass: W.Option<Expr>, methods: seq<FnDecl>): State
    decreases methods, 2
  {
    var body := ClassBody(ClassHead(st, name, superclass), methods);
    (if superclass.Some? then EndScope(body) else body).(cls := st.cls)
  }

  function ResolveStmt(st: State, s: Stmt): State
    decreases s
  {
    match s
    case BlockStmt(ss) => EndScope(ResolveStmts(BeginScope(st), ss))
    case ClassStmt(name, superclass, methods) => ResolveClass(st, name, superclass, methods)
    case ExpressionStmt(e) => ResolveExpr(st, e)
  }

  function ResolveStmts(st: State, ss: seq<Stmt>): State
    decreases ss
  {
    if ss == [] then st else ResolveStmt(ResolveStmts(st, ss[..|ss| - 1]), ss[|ss| - 1])
  }

  // ---------------------------------------------------------------------
  // Properties

  /** The scopes below the innermost one. */
  function Outer(scopes: seq<map<string, bool>>): seq<map<string, bool>> {
    if scopes == [] then [] else scopes[..|scopes| - 1]
  }

  /** What a statement may change: the innermost scope and the end of the
      log, and nothing else. */
  ghost predicate Keeps(st: State, r: State) {
    && |r.scopes| == |st.scopes|
    && Outer(r.scopes) == Outer(st.scopes)
    && r.fn == st.fn && r.cls == st.cls
    && st.log <= r.log
  }

  lemma {:induction false} KeepsTrans(a: State, b: State, c: State)
    requires Keeps(a, b) && Keeps(b, c)
    ensures Keeps(a, c)
  {
    assert a.log == b.log[..|a.log|] == c.log[..|b.log|][..|a.log|];
  }

  /** `end_scope` undoes `begin_scope`. */
  lemma {:induction false} EndUndoesBegin(st: State)
    ensures EndScope(BeginScope(st)) == st
    ensures |BeginScope(st).scopes| == |st.scopes| + 1
    ensures BeginScope(st).scopes[|st.scopes|] == map[]
  {
    assert (st.scopes + [map[]])[..|st.scopes|] == st.scopes;
  }

  /** Whatever runs inside a fresh scope and keeps it, the scope stack is
      back as it was once that scope is popped. */
  lemma {:induction false} Bracket(st: State, r: State)
    requires Keeps(BeginScope(st), r)
    ensures EndScope(r).scopes == st.scopes
    ensures r.fn == st.fn && r.cls == st.cls && st.log <= r.log
  {
    EndUndoesBegin(st);
  }

  /** With no scope open, declaring and defining change nothing. */
  lemma {:induction false} GlobalNamesUntracked(st: State, name: string)
    requires st.scopes == []
    ensures Declare(st, name) == st && Define(st, name) == st
  {
  }

  /** `declare` enters `name` as not yet defined in the innermost scope,
      reports it when that scope already holds it, and touches nothing else. */
  lemma {:induction false} DeclareInnermost(st: State, name: string)
    requires st.scopes != []
    ensures var r := Declare(st, name); var n := |st.scopes|;
            && |r.scopes| == n
            && r.scopes[n - 1] == st.scopes[n - 1][name := false]
            && (forall i :: 0 <= i < n - 1 ==> r.scopes[i] == st.scopes[i])
            && (name in st.scopes[n - 1] ==> r.log == st.log + [Reported(name, AlreadyExists)])
            && (name !in st.scopes[n - 1] ==> r.log == st.log)
            && r.fn == st.fn && r.cls == st.cls
  {
  }

  /** `define` marks `name` as defined in the innermost scope only. */
  lemma {:induction false} DefineInnermost(st: State, name: string)
    requires st.scopes != []
    ensures var r := Define(st, name); var n := |st.scopes|;
            && |r.scopes| == n
            && r.scopes[n - 1] == st.scopes[n - 1][name := true]
            && (forall i :: 0 <= i < n - 1 ==> r.scopes[i] == st.scopes[i])
            && r.log == st.log && r.fn == st.fn && r.cls == st.cls
  {
  }

  lemma {:induction false} DeclareKeeps(st: State, name: string)
    ensures Keeps(st, Declare(st, name)) && Keeps(st, Define(st, name))
  {
  }

  lemma {:induction false} ParamsKeep(st: State, params: seq<string>)
    ensures Keeps(st, DeclareParams(st, params))
    decreases |params|
  {
    if params != [] {
      var p := params[|params| - 1];
      var before := DeclareParams(st, params[..|params| - 1]);
      ParamsKeep(st, params[..|params| - 1]);
      DeclareKeeps(before, p);
      DeclareKeeps(Declare(before, p), p);
      KeepsTrans(st, before, Declare(before, p));
      KeepsTrans(st, Declare(before, p), Define(Declare(before, p), p));
    }
  }

  /** After the parameters are declared and defined, each of them is in the
      innermost scope. */
  lemma {:induction false} ParamsInInnermost(st: State, params: seq<string>, p: string)
    requires st.scopes != [] && p in params
    ensures var r := DeclareParams(st, params); r.scopes != [] && p in r.scopes[|r.scopes| - 1]
    decreases |params|
  {
    var last := params[|params| - 1];
    var init := params[..|params| - 1];
    var before := DeclareParams(st, init);
    ParamsKeep(st, init);
    if p != last {
      assert p in init by {
        assert params == init + [last];
      }
      ParamsInInnermost(st, init, p);
    }
  }

  /** `resolve_local` reports the distance to the innermost scope that holds
      the name, or nothing when no scope holds it. */
  lemma {:induction false} LocalDepth(st: State, id: nat, name: string, i: nat)
    requires i < |st.scopes| && name in st.scopes[i]
    requires forall j :: i < j < |st.scopes| ==> name !in st.scopes[j]
    ensures ResolveLocal(st, id, name) == st.(log := st.log + [Resolved(id, |st.scopes| - 1 - i)])
  {
    assert Innermost(st.scopes, name) == W.Some(i);
  }

  lemma {:induction false} LocalUnbound(st: State, id: nat, name: string)
    requires forall j :: 0 <= j < |st.scopes| ==> name !in st.scopes[j]
    ensures ResolveLocal(st, id, name) == st
  {
    assert Innermost(st.scopes, name).None?;
  }

  /** Conversely, whatever `resolve_local` reports is such a depth. */
  lemma {:induction false} LocalReportsInnermost(st: State, id: nat, name: string)
    ensures var r := ResolveLocal(st, id, name);
            || r == st
            || exists i :: 0 <= i < |st.scopes| && name in st.scopes[i]
                 && (forall j :: i < j < |st.scopes| ==> name !in st.scopes[j])
                 && r == st.(log := st.log + [Resolved(id, |st.scopes| - 1 - i)])
  {
    var r := Innermost(st.scopes, name);
    if r.Some? {
      var i := r.value;
      assert name in st.scopes[i];
    }
  }

  lemma {:induction false} ExprKeeps(st: State, e: Expr)
    ensures Keeps(st, ResolveExpr(st, e))
    ensures ResolveExpr(st, e).scopes == st.scopes
  {
  }

  /** Every statement keeps the stack height, the scopes below the innermost
      one, the function and class kinds, and only appends to the log. */
  lemma {:induction false} StmtKeeps(st: State, s: Stmt)
    ensures Keeps(st, ResolveStmt(st, s))
    decreases s
  {
    match s
    case BlockStmt(ss) =>
      StmtsKeeps(BeginScope(st), ss);
      Bracket(st, ResolveStmts(BeginScope(st), ss));
    case ClassStmt(name, superclass, methods) =>
      ClassKeeps(st, name, superclass, methods);
    case ExpressionStmt(e) =>
      ExprKeeps(st, e);
  }

  lemma {:induction false} StmtsKeeps(st: State, ss: seq<Stmt>)
    ensures Keeps(st, ResolveStmts(st, ss))
    decreases ss
  {
    if ss != [] {
      var before := ResolveStmts(st, ss[..|ss| - 1]);
      StmtsKeeps(st, ss[..|ss| - 1]);
      StmtKeeps(before, ss[|ss| - 1]);
      KeepsTrans(st, before, ResolveStmt(before, ss[|ss| - 1]));
    }
  }

  /** A function leaves the scope stack exactly as it found it and restores
      the enclosing function kind. */
  lemma {:induction false} FnKeeps(st: State, f: FnDecl, kind: FnKind)
    ensures var r := ResolveFn(st, f, kind);
            r.scopes == st.scopes && r.fn == st.fn && r.cls == st.cls && st.log <= r.log
    decreases f, 0
  {
    var entry := BeginScope(st.(fn := kind));
    var params := DeclareParams(entry, f.params);
    ParamsKeep(entry, f.params);
    StmtsKeeps(params, f.body);
    KeepsTrans(entry, params, ResolveStmts(params, f.body));
    Bracket(st.(fn := kind), ResolveStmts(params, f.body));
  }

  lemma {:induction false} MethodsKeep(st: State, methods: seq<FnDecl>)
    ensures var r := ResolveMethods(st, methods);
            r.scopes == st.scopes && r.fn == st.fn && r.cls == st.cls && st.log <= r.log
    decreases methods, 0
  {
    if methods != [] {
      var m := methods[|methods| - 1];
      var before := ResolveMethods(st, methods[..|methods| - 1]);
      MethodsKeep(st, methods[..|methods| - 1]);
      FnKeeps(before, m, MethodKind(m));
    }
  }

  lemma {:induction false} HeadScopes(st: State, name: string, superclass: W.Option<Expr>)
    ensures var h := ClassHead(st, name, superclass);
            var d := Define(Declare(st, name), name).scopes;
            && (superclass.None? ==> h.scopes == d)
            && (superclass.Some? ==> h.scopes == d + [map["super" := true]])
            && h.fn == st.fn && st.log <= h.log
  {
    var declared := Define(Declare(st.(cls := ClassKind.Class), name), name);
    DeclareKeeps(st.(cls := ClassKind.Class), name);
    DeclareKeeps(Declare(st.(cls := ClassKind.Class), name), name);
    assert st.log <= declared.log;
  }

  lemma {:induction false} BodyKeeps(st: State, methods: seq<FnDecl>)
    ensures var r := ClassBody(st, methods);
            r.scopes == st.scopes && r.fn == st.fn && r.cls == st.cls && st.log <= r.log
    decreases methods, 1
  {
    var inside := Define(BeginScope(st), "this");
    MethodsKeep(inside, methods);
    EndUndoesBegin(st);
  }

  /** The only lasting change a class declaration makes to the scope stack
      is its own name, defined in the innermost scope; the enclosing class
      kind is restored. */
  lemma {:induction false} ClassKeeps(st: State, name: string, superclass: W.Option<Expr>, methods: seq<FnDecl>)
    ensures var r := ResolveClass(st, name, superclass, methods);
            && r.scopes == Define(Declare(st, name), name).scopes
            && r.fn == st.fn && r.cls == st.cls && st.log <= r.log
            && Keeps(st, r)
    decreases methods, 2
  {
    var h := ClassHead(st, name, superclass);
    HeadScopes(st, name, superclass);
    BodyKeeps(h, methods);
    DeclareKeeps(st, name);
    DeclareKeeps(Declare(st, name), name);
    var d := Define(Declare(st, name), name).scopes;
    if superclass.Some? {
      assert (d + [map["super" := true]])[..|d|] == d;
    }
  }

  /** A block leaves the scope stack exactly as it found it. */
  lemma {:induction false} BlockRestoresScopes(st: State, ss: seq<Stmt>)
    ensures var r := ResolveStmt(st, BlockStmt(ss));
            r.scopes == st.scopes && r.fn == st.fn && r.cls == st.cls && st.log <= r.log
  {
    StmtsKeeps(BeginScope(st), ss);
    Bracket(st, ResolveStmts(BeginScope(st), ss));
  }

  /** A class named as its own superclass is reported. */
  lemma {:induction false} SelfInheritanceReported(st: State, name: string, id: nat, methods: seq<FnDecl>)
    ensures Reported(name, InheritsItself) in ResolveStmt(st, ClassStmt(name, W.Some(Variable(id, name)), methods)).log
  {
    var declared := Define(Declare(st.(cls := ClassKind.Class), name), name);
    var h := ClassHead(st, name, W.Some(Variable(id, name)));
    assert h.log[|declared.log|] == Reported(name, InheritsItself);
    BodyKeeps(h, methods);
    var r := ResolveStmt(st, ClassStmt(name, W.Some(Variable(id, name)), methods));
    assert r == ResolveClass(st, name, W.Some(Variable(id, name)), methods);
    assert r.log == ClassBody(h, methods).log;
    assert r.log[|declared.log|] == Reported(name, InheritsItself);
  }

  /** The statements are resolved in order: the first one, then the rest. */
  lemma {:induction false} StmtsFirst(st: State, ss: seq<Stmt>)
    requires ss != []
    ensures ResolveStmts(st, ss) == ResolveStmts(ResolveStmt(st, ss[0]), ss[1..])
    decreases |ss|
  {
    if |ss| > 1 {
      var init := ss[..|ss| - 1];
      StmtsFirst(st, init);
      assert init[1..] == ss[1..][..|ss[1..]| - 1];
      assert init[0] == ss[0];
    } else {
      assert ss[..0] == [] && ss[1..] == [];
    }
  }

  /** With the corrected order, a function body that starts by reading one
      of its parameters finds it in the innermost scope. */
  lemma {:induction false} ParamVisibleInBody(st: State, f: FnDecl, kind: FnKind, id: nat, p: string)
    requires p in f.params && f.body != [] && f.body[0] == ExpressionStmt(Variable(id, p))
    ensures Resolved(id, 0) in ResolveFn(st, f, kind).log
  {
    var entry := BeginScope(st.(fn := kind));
    var params := DeclareParams(entry, f.params);
    ParamsInInnermost(entry, f.params, p);
    LocalDepth(params, id, p, |params.scopes| - 1);
    var first := ResolveStmt(params, f.body[0]);
    assert first.log == params.log + [Resolved(id, 0)];
    StmtsFirst(params, f.body);
    StmtsKeeps(first, f.body[1..]);
    var r := ResolveFn(st, f, kind);
    assert first.log <= r.log;
    assert r.log[|params.log|] == Resolved(id, 0);
  }

  /** As written, the body is resolved against the scopes the function was
      declared in: its parameters contribute only their duplicate reports. */
  lemma {:induction false} BodySeesOuterScopesAsWritten(st: State, f: FnDecl, kind: FnKind)
    ensures var params := DeclareParams(BeginScope(st.(fn := kind)), f.params);
            ResolveFnAsWritten(st, f, kind) == ResolveStmts(st.(fn := kind, log := params.log), f.body).(fn := st.fn)
  {
    var entry := BeginScope(st.(fn := kind));
    var params := DeclareParams(entry, f.params);
    ParamsKeep(entry, f.params);
    Bracket(st.(fn := kind), params);
    assert EndScope(params) == st.(fn := kind, log := params.log);
  }

  /** So a method that reads its own parameter `x` resolves it as written
      to nothing, while the corrected order resolves it at depth 0. */
  lemma {:induction false} ParamHiddenAsWritten(st: State)
    requires st.scopes == []
    ensures var f := FnDecl("get", ["x"], [ExpressionStmt(Variable(7, "x"))]);
            && ResolveFnAsWritten(st, f, FnKind.Method).log == st.log
            && ResolveFn(st, f, FnKind.Method).log == st.log + [Resolved(7, 0)]
  {
    var f := FnDecl("get", ["x"], [ExpressionStmt(Variable(7, "x"))]);
    BodySeesOuterScopesAsWritten(st, f, FnKind.Method);
    var params := DeclareParams(BeginScope(st.(fn := FnKind.Method)), f.params);
    assert params.log == st.log;
    var inner := st.(fn := FnKind.Method);
    assert ResolveStmts(inner, f.body) == ResolveStmt(inner, f.body[0]);
    LocalUnbound(inner, 7, "x");
    ParamsKeep(BeginScope(st.(fn := FnKind.Method)), f.params);
    ParamsInInnermost(BeginScope(st.(fn := FnKind.Method)), f.params, "x");
    LocalDepth(params, 7, "x", 0);
    assert ResolveStmts(params, f.body) == ResolveStmt(params, f.body[0]);
  }
}

=== FILE: resolver.dfy ===
/** The `Resolver` class of js/src/resolver.ts: the scope stack, the kinds
    of the enclosing function and class, and the log standing in for the
    interpreter and the error reporter are fields, updated in place. Each
    method is proved to leave the state the function of the same name in
    module Resolution computes. */
module Resolver {
  import opened Resolution

  class Resolver {
    var scopes: seq<map<string, bool>>
    var currentFn: FnKind
    var currentClass: ClassKind
    var log: seq<Entry>

    function Snapshot(): State
      reads this
    {
      State(scopes, currentFn, currentClass, log)
    }

    constructor()
      ensures Snapshot() == State([], FnKind.None, ClassKind.None, [])
    {
      scopes := [];
      currentFn := FnKind.None;
      currentClass := ClassKind.None;
      log := [];
    }

    method Resolve(statements: seq<Stmt>)
      modifies this
      ensures Snapshot() == ResolveStmts(old(Snapshot()), statements)
      decreases statements
    {
      ghost var st := Snapshot();
      for i := 0 to |statements|
        invariant Snapshot() == ResolveStmts(st, statements[..i])
      {
        assert statements[..i + 1][..i] == statements[..i];
        ResolveStatement(statements[i]);
      }
      assert statements[..|statements|] == statements;
    }

    method VisitBlockStmt(stmt: Stmt)
      requires stmt.BlockStmt?
      modifies this
      ensures Snapshot() == ResolveStmt(old(Snapshot()), stmt)
      decreases stmt, 0
    {
      BeginScope();
      Resolve(stmt.statements);
      EndScope();
    }

    method VisitClassStmt(stmt: Stmt)
      requires stmt.ClassStmt?
      modifies this
      ensures Snapshot() == ResolveStmt(old(Snapshot()), stmt)
      decreases stmt, 0
    {
      ghost var st := Snapshot();
      var enclosingClass := currentClass;
      currentClass := ClassKind.Class;
      Declare(stmt.name);
      Define(stmt.name);
      ghost var declared := Snapshot();

      if stmt.superclass.Some? && stmt.name == stmt.superclass.value.name {
        log := log + [Reported(stmt.superclass.value.name, InheritsItself)];
      }
      ghost var checked := Snapshot();

      if stmt.superclass.Some? {
        currentClass := ClassKind.Subclass;
        ResolveExpr(stmt.superclass.value);
      }

      if stmt.superclass.Some? {
        BeginScope();
        scopes := scopes[|scopes| - 1 := scopes[|scopes| - 1]["super" := true]];
      }
      assert Snapshot() == ClassHead(st, stmt.name, stmt.superclass) by {
        assert declared == Resolution.Define(Resolution.Declare(st.(cls := ClassKind.Class), stmt.name), stmt.name);
      }

      ghost var head := Snapshot();
      BeginScope();
      scopes := scopes[|scopes| - 1 := scopes[|scopes| - 1]["this" := true]];
      ghost var inside := Snapshot();
      assert inside == Resolution.Define(Resolution.BeginScope(head), "this");
      ResolveMethods(stmt.methods);
      ghost var resolved := Snapshot();
      EndScope();
      assert Snapshot() == ClassBody(head, stmt.methods) by {
        assert Snapshot() == Resolution.EndScope(resolved);
      }

      if stmt.superclass.Some? {
        EndScope();
      }
      currentClass := enclosingClass;
      assert Snapshot() == ResolveClass(st, stmt.name, stmt.superclass, stmt.methods);
    }

    /** The loop of `visit_class_stmt` over the methods: `init` is resolved
        as an initializer, every other method as a method. */
    method ResolveMethods(methods: seq<FnDecl>)
      modifies this
      ensures Snapshot() == Resolution.ResolveMethods(old(Snapshot()), methods)
      decreases methods
    {
      ghost var st := Snapshot();
      for i := 0 to |methods|
        invariant Snapshot() == Resolution.ResolveMethods(st, methods[..i])
      {
        var declaration := FnKind.Method;
        if methods[i].name == "init" {
          declaration := FnKind.Initializer;
        }
        assert methods[..i + 1][..i] == methods[..i];
        ResolveFn(methods[i], declaration);
      }
      assert methods[..|methods|] == methods;
    }

    method VisitExpressionStmt(stmt: Stmt)
      requires stmt.ExpressionStmt?
      modifies this
      ensures Snapshot() == ResolveStmt(old(Snapshot()), stmt)
    {
      ResolveExpr(stmt.expression);
    }

    method ResolveStatement(stmt: Stmt)
      modifies this
      ensures Snapshot() == ResolveStmt(old(Snapshot()), stmt)
      decreases stmt, 1
    {
      match stmt
      case BlockStmt(_) => VisitBlockStmt(stmt);
      case ClassStmt(_, _, _) => VisitClassStmt(stmt);
      case ExpressionStmt(_) => VisitExpressionStmt(stmt);
    }

    method ResolveExpr(expr: Expr)
      modifies this
      ensures Snapshot() == Resolution.ResolveExpr(old(Snapshot()), expr)
    {
      ResolveLocal(expr, expr.name);
    }

    /** Parameters are declared in a fresh scope that stays open while the
        body is resolved (the corrected order; see Resolution.ResolveFn). */
    method ResolveFn(fn: FnDecl, kind: FnKind)
      modifies this
      ensures Snapshot() == Resolution.ResolveFn(old(Snapshot()), fn, kind)
      decreases fn, 0
    {
      var enclosingFn := currentFn;
      currentFn := kind;

      BeginScope();
      ghost var entry := Snapshot();
      for i := 0 to |fn.params|
        invariant Snapshot() == DeclareParams(entry, fn.params[..i])
      {
        assert fn.params[..i + 1][..i] == fn.params[..i];
        Declare(fn.params[i]);
        Define(fn.params[i]);
      }
      assert fn.params[..|fn.params|] == fn.params;
      Resolve(fn.body);
      EndScope();

      currentFn := enclosingFn;
    }

    method BeginScope()
      modifies this
      ensures Snapshot() == Resolution.BeginScope(old(Snapshot()))
    {
      scopes := scopes + [map[]];
    }

    method EndScope()
      modifies this
      ensures Snapshot() == Resolution.EndScope(old(Snapshot()))
    {
      if |scopes| > 0 {
        scopes := scopes[..|scopes| - 1];
      }
    }

    method Declare(name: string)
      modifies this
      ensures Snapshot() == Resolution.Declare(old(Snapshot()), name)
    {
      if |scopes| == 0 {
        return;
      }
      var scope := scopes[|scopes| - 1];
      if name in scope {
        log := log + [Reported(name, AlreadyExists)];
      }
      scopes := scopes[|scopes| - 1 := scope[name := false]];
    }

    method Define(name: string)
      modifies this
      ensures Snapshot() == Resolution.Define(old(Snapshot()), name)
    {
      if |scopes| == 0 {
        return;
      }
      scopes := scopes[|scopes| - 1 := scopes[|scopes| - 1][name := true]];
    }

    /** Search from the innermost scope outwards; report the first hit. */
    method ResolveLocal(expr: Expr, name: string)
      modifies this
      ensures Snapshot() == Resolution.ResolveLocal(old(Snapshot()), expr.id, name)
    {
      var i: int := |scopes| - 1;
      while i >= 0
        invariant -1 <= i < |scopes|
        invariant Snapshot() == old(Snapshot())
        invariant forall j :: i < j < |scopes| ==> name !in scopes[j]
        decreases i + 1
      {
        if name in scopes[i] {
          LocalDepth(Snapshot(), expr.id, name, i);
          log := log + [Resolved(expr.id, |scopes| - 1 - i)];
          return;
        }
        i := i - 1;
      }
      LocalUnbound(Snapshot(), expr.id, name);
    }
  }
}

=== FILE: spans.dfy ===
/** A payload tagged with a half-open range `[start, end)`. Token spans count
    source characters; syntax-node spans count token indices. */
module Spans {
  datatype Span<+T> = Span(item: T, start: nat, end: nat)

  /** Every span is non-empty and ends within `limit`, and each one starts no
      earlier than any span before it ends. */
  ghost predicate Ordered<T>(ss: seq<Span<T>>, limit: nat) {
    && (forall i :: 0 <= i < |ss| ==> ss[i].start < ss[i].end <= limit)
    && (forall i, j :: 0 <= i < j < |ss| ==> ss[i].end <= ss[j].start)
  }

  /** Every span lies within `[lo, hi)`. */
  ghost predicate AllWithin<T>(ss: seq<Span<T>>, lo: nat, hi: nat) {
    forall i :: 0 <= i < |ss| ==> lo <= ss[i].start && ss[i].end <= hi
  }

  /** A span in front of ordered spans that start after it keeps them
      ordered. */
  lemma {:induction false} OrderedCons<T>(x: Span<T>, xs: seq<Span<T>>, lo: nat, hi: nat)
    requires lo <= x.start < x.end <= hi && Ordered(xs, hi) && AllWithin(xs, x.end, hi)
    ensures Ordered([x] + xs, hi) && AllWithin([x] + xs, lo, hi)
  {
    var all := [x] + xs;
    assert forall i :: 1 <= i < |all| ==> all[i] == xs[i - 1];
  }
}

=== FILE: tokens.dfy ===
/** The closed token set of the `vea` tokenizer (vea/src/lexer.rs). */
module Tokens {
  /** Rust's `i64`. */
  newtype i64 = x: int | -0x8000_0000_0000_0000 <= x < 0x8000_0000_0000_0000

  const I64Max: int := 0x7fff_ffff_ffff_ffff

  /** The two lexical error kinds a token can carry. */
  datatype VeaErr = IntegerOverflow | InvalidStringEscape

  datatype Token =
    | Ident(name: string)
    | Number(value: i64)
    | String(text: string)
      // keywords
    | Let | If | Else | Print | True | False | While | For
      // operators
    | Plus | PlusEq | Minus | MinusEq | Star | StarEq | Slash | SlashEq
    | Eq | Bang | Underscore | EqEq | Ne | Gt | Ge | Lt | Le
    | Tilde | Pipe | PipeEq | And | AndEq | Caret | CaretEq | Question
    | Percent | PercentEq | Shl | ShlEq | Shr | ShrEq
      // control
    | LeftBrace | RightBrace | LeftBracket | RightBracket
    | LeftParen | RightParen | Comma | Semi
    | Error(err: VeaErr)

  predicate IsKeyword(t: Token) {
    t.Let? || t.If? || t.Else? || t.Print? || t.True? || t.False? || t.While? || t.For?
  }
}

=== FILE: wrappers.dfy ===
/** The optional value used wherever the source returns `Option`, or where a
    recogniser or a grammar rule can fail. */
module Wrappers {
  datatype Option<+T> = None | Some(value: T)
}
